=== FILE: README.md ===
# ejdb-lua value marshaling, in Dafny

A model of the value-marshaling and argument-decoding layer of the Lua
binding for the EJDB2 embedded document database (`src/ejdb.c`):

- **Lua value → document** (`ejdb_lua_jbl_from_lua`,
  `ejdb_lua_jbl_from_lua_set_field`, `ejdb_lua_jbl_create`): a table is
  classified by probing key 1. If key 1 is set, the table becomes an array
  holding every entry `lua_next` visits. Otherwise it becomes an object keyed
  by the string-coerced keys. Field values are dispatched as table, then
  string (numbers included), then boolean; anything else raises.
- **Document → Lua value** (`ejdb_lua_push_jbl`): a total recursive map
  over the kinds NONE, NULL, BOOL, I64, F64, STR, OBJECT and ARRAY. Arrays
  are tagged `__type = "array"` and use 1-based keys.
- **Open-mode decoding** in `ejdb_lua_open`: `w` sets truncate, `r` sets
  read-only, and any other character raises.
- **`query:set`** (`ejdb_lua_query_set`): only Lua integers are accepted.
  Each one is bound as an i64 under the placeholder (name, index).

Modules:

| file | module | contents |
|---|---|---|
| results.dfy | `Results` | `Option`, `Result` and the tagged `Error` that stands for a raised Lua error or an engine result code |
| scalars.dfy | `Scalars` | opaque `Float`, C-string reading, integer → decimal text, narrowing to C `int` |
| jbl.dfy | `Jbl` | the engine document value |
| lua.dfy | `Lua` | Lua values, tables as entry sequences, `luaL_check*`, `lua_rawget`, `lua_settable`, `lua_next` |
| to_document.dfy | `ToDocument` | Lua → document |
| from_document.dfy | `FromDocument` | document → Lua |
| round_trip.dfy | `RoundTrip` | what survives document → Lua → document |
| open_mode.dfy | `OpenMode` | the mode string and the arguments handed to `ejdb_open` |
| query_set.dfy | `QuerySet` | `query:set` and the placeholder bindings it leaves |

A Lua table is a sequence of entries with distinct, non-nil keys and non-nil
values (`Lua.TableShape`). The order of the sequence is the order `lua_next`
visits them in, so the traversal order is an explicit input. For the tables
the binding builds itself, Lua does not promise an order. Statements about
them are therefore made for every reordering (`Lua.Reordered`). Some code runs
outside this file: Lua's float formatting and numeral parsing, and the
engine's `jbl_from_json`, `jbl_clone` and `jql_set_i64`. These become
parameters: the `Lua.Host` and `ToDocument.Engine` records, and a result
code `rc`.

What the code does, which the model follows:

- A number passes `lua_isstring`, so a number stored in a table becomes a
  *string* field holding its text. The document → Lua → document trip
  therefore turns `I64(5)` into `Str("5")` (`RoundTrip.IntegerFieldBecomesText`).
- An array-classified table keeps every entry, not only the positional
  ones. Entries appear in traversal order, and keys such as `__type` are
  kept too. A non-empty array whose first element is not null, pushed to
  Lua, therefore comes back with `"array"` as an extra element, somewhere
  among the others (`RoundTrip.ArrayGainsTag`).
- Whether a pushed array reads back as an array depends only on its first
  element (`RoundTrip.ArrayClassifiedByFirstElement`). The empty array is
  pushed as `{__type = "array"}`, which has no key 1, so it comes back as
  the object `{"__type": "array"}` (`RoundTrip.EmptyArrayBecomesObject`).
  An array whose first element is null, such as `[null, "x"]`, has no key
  1 either. It is read as an object, and its integer keys then meet the
  `lua_next` defect listed under Findings.
- A null field or element is pushed as nil. `lua_settable` with nil stores
  nothing, so the field disappears (`RoundTrip.NullFieldVanishes`).
- Strings are pushed with `lua_pushstring`, which stops at the first NUL.
  Keys are pushed with `lua_pushlstring`, which keeps their full length.
- In the other direction, field names, string values and JSON text reach
  `jbl_set_*` and `jbl_from_json` as C strings, so each stops at its first
  NUL. Two keys that differ only after a NUL are both handed to `jbl_set_*`
  under the same name (`ToDocument.NulKeysCollide`).
- `query:set` accepts only integers. A float, a boolean or a string raises
  "invalid type for query:set".
- The placeholder index is narrowed from `lua_Integer` to C `int`. The
  model takes the value modulo 2^32 in two's complement.

What does round-trip: objects built from NUL-free strings, booleans and
nested objects with unique, NUL-free field names come back with the same
fields and values. The order of the fields may change, because it follows
the order `lua_next` visits each table in (`RoundTrip.ObjectRoundTrip`).

## Model

| member | source | states |
|---|---|---|
| `ToDocument.FromLua` | src/ejdb.c:82-110 | A non-table raises "invalid type to serialize: <typename>". On success the table becomes an array exactly when key 1 holds a non-nil value, and an object otherwise. The array has one element per entry and the object has one field per entry. |
| `ToDocument.ArrayItems` | src/ejdb.c:89-95 | On success the array loop yields one element per remaining entry. |
| `ToDocument.ObjectFields` | src/ejdb.c:97-104 | On success the object loop yields one field per remaining entry. Every key passed `lua_isstring`. Field k is named by key k coerced to text and read as a C string, which stops at the first NUL. |
| `ToDocument.SetField` | src/ejdb.c:63-80 | The dispatch order is table, then `lua_isstring`, then boolean. A table gives a nested array or object. A string or number gives `Str` of its text, read as a C string up to the first NUL. A boolean gives `Bool`. Anything else raises "invalid type to serialize: <typename>". |
| `ToDocument.JblCreate` | src/ejdb.c:112-125 | A table is converted. A string or number is handed to `jbl_from_json` as its text read as a C string. A userdata holding a document is handed to `jbl_clone`. Anything else is a bad-argument error for slot `index`, naming the type found, or "no value" when the slot is absent. |
| `ToDocument.FromLuaSucceedsIff` | src/ejdb.c:63-110 | The conversion succeeds iff the value is `Serializable`. That predicate is defined independently: a table where every value is a string, number, boolean or serializable table, and where every key of an object-classified table is a string or number. |
| `ToDocument.ArrayItemsContent` | src/ejdb.c:89-95 | In an array-classified table, element k of the document is the converted value of the k-th entry visited, whatever that entry's key. |
| `ToDocument.ObjectFieldsContent` | src/ejdb.c:97-104 | In an object-classified table, field k is named by the k-th key, coerced to a string and cut at its first NUL. It holds that entry's converted value. |
| `ToDocument.ArrayItemsFirstError` | src/ejdb.c:89-95 | A failed array conversion reports the error of the first entry, in traversal order, whose value cannot be stored. |
| `ToDocument.ObjectFieldsFirstError` | src/ejdb.c:97-104 | A failed object conversion reports the first offending entry in traversal order. A key that is neither string nor number raises a bad-argument error before that entry's value is looked at. |
| `ToDocument.ObjectKeysUnique` | src/ejdb.c:97-104 | When all keys are strings without a NUL, the object has no repeated field name. |
| `ToDocument.NulKeysCollide` | src/ejdb.c:101-102 | `{["a\0b"] = true, ["a\0c"] = false}`: both entries are handed to `jbl_set_*` under the name "a". |
| `ToDocument.ObjectIntegerKeysUnique` | src/ejdb.c:101-102 | When all keys are integers, the field names are also distinct, because distinct integers have distinct decimal texts. |
| `ToDocument.CreateFallbackAsWritten` | src/ejdb.c:120-123 | As written, the fallback checks slot 1 against the `JQL*` metatable, whatever `index` is. |
| `ToDocument.PutNewMissingDocument` | src/ejdb.c:112-125 | `db:put_new("c")` without a document: slot 3 is absent, and the error reports "no value". |
| `ToDocument.FallbackAsWrittenRejectsDocument` | src/ejdb.c:121-122 | When slot 1 holds the database, as it does in `put_new`, the as-written fallback raises "JQL* expected, got EJDB*". The corrected `JblCreate` clones the document at `index`. |
| `ToDocument.MissingReturnExample` | src/ejdb.c:112-115 | `{}` converts to the empty object, yet the as-written code returned for it can be non-zero. |
| `ToDocument.NumericKeyBreaksTraversal` | src/ejdb.c:99-104 | Take an integer key whose text is not also a key. The as-written traversal fails with "invalid key to 'next'" after it. Handing back the original key continues the traversal. |
| `ToDocument.NumericKeyResumesAtText` | src/ejdb.c:99-104 | Take an integer key whose text is also a key. The as-written traversal continues after the entry with the text key, not after the integer key. |
| `ToDocument.NumericKeySkipExample` | src/ejdb.c:99-104 | `{[2] = "x", ["2"] = "y"}` visited as `2, "2"`: the as-written traversal ends after the first entry, so `"2"` is never stored. |
| `ToDocument.NumericKeyLoopExample` | src/ejdb.c:99-104 | The same table visited as `"2", 2`: after entry `2` the as-written traversal returns to entry `2` again, so the loop never ends. |
| `ToDocument.NumericKeyExample` | src/ejdb.c:96-104 | `{[2] = "x"}` converts to `{"2": "x"}`, but the as-written traversal raises after its one entry. |
| `FromDocument.ToLua` | src/ejdb.c:176-234 | NONE and NULL give nil. BOOL, I64, F64 and STR give a Lua boolean, integer, number and string with the same payload, the string cut at its first NUL. OBJECT and ARRAY give tables. Every table produced has Lua table shape at every depth. |
| `FromDocument.ObjectLookup` | src/ejdb.c:197-213 | In the table made from an object, key k holds the converted value of the last field named k, and nil when no field has that name. |
| `FromDocument.ObjectFieldLookup` | src/ejdb.c:207-211 | With unique field names, each field's converted value is found under its own name. |
| `FromDocument.ObjectEntries` | src/ejdb.c:197-213 | Take an object with unique field names and no null values. Its table holds exactly one entry per field, keyed by the field name. The statement is a multiset equality, so it says nothing about order. |
| `FromDocument.ArrayLookup` | src/ejdb.c:214-231 | In the table made from an array, `__type` holds "array" and key k+1 holds the converted element at 0-based position k. Every other key holds nil. |
| `Scalars.CString` | src/ejdb.c:195 | The pushed string is the longest prefix of the document string that contains no NUL. A NUL-free string is unchanged. |
| `Scalars.DecimalRoundTrip` | src/ejdb.c:101 | The decimal text that `lua_tolstring` gives an integer key reads back as that integer. |
| `Scalars.DecimalTextNoNul` | src/ejdb.c:101-102 | The decimal text of an integer holds no NUL, so reading it as a C string keeps all of it. |
| `Scalars.WrapInt32` | src/ejdb.c:165 | `int index = luaL_checkinteger(...)` lies in the C `int` range. It is congruent to the Lua integer modulo 2^32, and equal to it when the integer is in range. |
| `Lua.CheckInteger` | src/ejdb.c:165 | An integer passes unchanged. A value that is not a number or string is a bad-argument error. |
| `Lua.SetTable` | src/ejdb.c:207-211 | After `lua_settable`, key k holds v and every other key keeps its value. Nil removes the key. The table keeps Lua table shape and gains no entry other than (k, v). |
| `Lua.ReorderedReflexive` | src/ejdb.c:99-104 | Every well-formed value is a reordering of itself, so the order the model builds is one of the orders the round-trip lemmas cover. |
| `Lua.NextVisitsInOrder` | src/ejdb.c:99-104 | A `lua_next` traversal that hands back each visited key unchanged visits the entries in sequence order and then stops. |
| `RoundTrip.ObjectRoundTrip` | src/ejdb.c:197-213 | Take a plain object, push it to Lua, and traverse every table in any order. The conversion back succeeds and gives the same fields with the same values, up to field order at every depth. Plain means NUL-free strings, booleans and nested objects with unique, NUL-free names. |
| `RoundTrip.ArrayGainsTag` | src/ejdb.c:214-231 | `[ "a" ]` pushed to Lua and converted back, in either traversal order, is an array whose elements are "array" and "a", as a multiset. |
| `RoundTrip.IntegerFieldBecomesText` | src/ejdb.c:71-72 | An I64 field with a NUL-free name comes back as the string of its decimal digits. |
| `RoundTrip.ArrayClassifiedByFirstElement` | src/ejdb.c:214-231 | The table pushed for an array holds key 1 exactly when the array is non-empty and its first element is not null. So it reads back as an array exactly then (lines 85-86). |
| `RoundTrip.EmptyArrayBecomesObject` | src/ejdb.c:214-231 | `[]` pushed to Lua and converted back is the object `{"__type": "array"}`. |
| `RoundTrip.NullFieldVanishes` | src/ejdb.c:207-211 | A null field is pushed as nil (lines 182-184), which `lua_settable` does not store, so the object comes back without it. |
| `OpenMode.DecodeOpenMode` | src/ejdb.c:32-40 | The mode decodes iff every character is `w` or `r`. Truncate is set iff `w` occurs, and read-only iff `r` occurs. Otherwise the error names the first other character. |
| `OpenMode.DecodeEncode` | src/ejdb.c:32-40 | Every flag set has a mode string that decodes back to it. |
| `OpenMode.DecodeSameCharacters` | src/ejdb.c:32-40 | The empty mode gives no flags. Two modes with the same characters decode alike, whatever the order or repetition. |
| `OpenMode.OpenRequest` | src/ejdb.c:29-41 | The path and the mode must be strings or numbers. Otherwise a bad-argument error names the slot and the type found, or "no value" when the argument is missing, since the stack is not padded. `ejdb_open` receives the path and the flags of the mode, both read as C strings. |
| `OpenMode.MissingArgumentsNoValue` | src/ejdb.c:29-31 | `ejdb.open()` and `ejdb.open("db")` report "string expected, got no value" for the missing slot. An explicit nil is still reported as nil. |
| `OpenMode.ModeStepAsWritten` | src/ejdb.c:33-40 | As written, an iteration examines the current character and never moves past it. |
| `OpenMode.ModeLoopAsWrittenNeverExits` | src/ejdb.c:33-40 | A mode starting with `w` or `r` keeps the as-written loop's condition true after any number of iterations. |
| `QuerySet.PlaceholderOf` | src/ejdb.c:164-165 | The placeholder name is a prefix of the argument and the index is in the C `int` range. Both are unchanged when they are NUL-free and in range. |
| `QuerySet.Set` | src/ejdb.c:161-174 | Success requires a query in slot 1, a string or number in slot 2, an integer in slot 3, a Lua integer in slot 4 and `jql_set_i64` returning 0. It binds I64 of the value under (name, index) and changes no other binding. A non-integer value raises "invalid type for query:set: <typename>". A non-zero engine code raises. |
| `QuerySet.SetOverwrites` | src/ejdb.c:166-169 | Setting the same placeholder twice gives the same result as the second call alone. |
| `QuerySet.SetCommutes` | src/ejdb.c:166-169 | Setting two different placeholders gives the same bindings in either order. |
| `QuerySet.IndexNarrowing` | src/ejdb.c:165 | Indexes that differ by 2^32 address the same placeholder. |

## Left out

- Lua stack manipulation, metatable and module registration and the `__index` wiring (`luaopen_ejdb`, lines 257-281). They are host-runtime plumbing.
- Engine calls: `ejdb_open`, `ejdb_close`, `ejdb_put_new`, `jql_create`, `jql_destroy`, `ejdb_exec` and `ejdb_init`. They are foreign library calls. `ejdb_lua_query`, `ejdb_lua_jql_create` and `ejdb_lua_ejdb_put_new` only pass arguments to them, so they are not modelled. `put_new` is used only as the context of the fallback finding.
- The GC finalizers (lines 50-60). Their timing is decided by Lua's collector.
- The exec visitor (lines 236-255). It calls arbitrary Lua code, and the count it returns is kept by the engine.
- JSON parsing inside `jbl_from_json` and the internals of `jbl_clone`. Both are parameters (`ToDocument.Engine`).
- Floating point. `Float` is an opaque 64-bit payload. Its text and integer value come from the `Lua.Host` parameters.
- ToDocument.ObjectFields: a name handed to `jbl_set_*` a second time is modelled as an extra field. What the engine does with a name already in the object is not visible in this file, and lines 68, 72 and 74 discard what it reports. It can happen with keys that differ only after a NUL, with an integer key and its decimal text, or with two floats that format alike.
- Allocation failures of the document library. `jbl_create_empty_array/object`, `jbl_set_*`, `jbl_create_iterator_holder` and `jbl_iterator_init` are treated as succeeding. So the model cannot show the ignored nested result code and the leaked nested document (lines 67-69). Nor can it show the ignored result of the recursive `ejdb_lua_push_jbl` (lines 209 and 227), or the holder that leaks when `jbl_iterator_init` fails (lines 203-206 and 221-224).
- Metamethods. `lua_geti` may call `__index`, but tables are read raw.
- Table identity. Tables are values, so a table that contains itself cannot be written, and on such a table the C recursion does not end.
- Float keys with an integral value. Lua stores such a key as an integer key, and tables in the model are taken to be stored that way already.
- Lua.SetTable: a new key is placed at the end of the entry sequence. That position is the model's choice. In Lua the order `lua_next` visits keys in depends on the array part and on hashing, and it is not specified. The lookup lemmas do not depend on it, and the round-trip lemmas quantify over every reordering of the built tables.
- FromDocument.ObjectEntries: it promises the entries as a multiset, not the order `lua_next` visits them in, for the reason above.
- RoundTrip.ObjectRoundTrip: it promises equality up to the order of fields at every depth, not identical field order, because the order of the fields read back is the traversal order of the tables.
- RoundTrip.ArrayGainsTag: it promises the elements as a multiset, because Lua may visit `__type` before or after the positional key.
- QuerySet.Set: the bindings map keyed by the (name, index) pair the binding passes to `jql_set_i64` is an assumption about the engine. `jql_set_i64` is not part of this model. If the engine used the index only for placeholders without a name, two statements would fail for the same name with different indexes: `Set`'s promise that no other binding changes, and `SetCommutes`.
- 64-bit bounds of integer payloads. `Integer` and `I64` carry unbounded `int`s, and no operation here does arithmetic on them.
- Error message text. Errors are tagged values. The "ejdb: " prefix and the engine's `iwlog_ecode_explained` strings are not reproduced.
- Lua.CheckInteger: for a float or a numeral string, the contract says nothing about the outcome. It comes from the `Host` coercions, which the code here does not define.
- ToDocument.JblCreate: no metatable for documents is registered in this file. The corrected fallback takes a userdata holding a document, named `JBL*` here, and that name is an assumption.

## Findings

| source | as written | input that shows it | evidently intended | confidence | as-written member | corrected member |
|---|---|---|---|---|---|---|
| src/ejdb.c:33-40 | the mode loop never advances `mode_string` | `ejdb.open(path, "w")` | advance one character per iteration | high; not executed | `OpenMode.ModeLoopAsWrittenNeverExits` | `OpenMode.DecodeOpenMode` |
| src/ejdb.c:82-110 | the table path of `ejdb_lua_jbl_from_lua` ends without `return`, so the caller reads an indeterminate code | `db:put_new("c", {})` | `return 0` after a successful conversion | medium (undefined behaviour); not executed | `ToDocument.MissingReturnExample` | `ToDocument.FromLua` |
| src/ejdb.c:121 | the fallback checks slot 1 against `JQL*` instead of slot `index` | `db:put_new("c", <document userdata>)` | check and clone the value at `index` | medium; not executed | `ToDocument.PutNewMissingDocument` | src/ejdb.c:112-125 | `db:put_new("c")` without a document: slot 3 is absent, and the error reports "no value". |
| `ToDocument.FallbackAsWrittenRejectsDocument` | `ToDocument.JblCreate` |
| src/ejdb.c:101 | `luaL_checkstring` on a number key converts it in place, so the next `lua_next` gets the key's text. When the text is not a key, `lua_next` raises. When it is a key, the traversal resumes after that entry, which skips entries or loops forever | `db:put_new("c", {[2] = "x"})`; `{[2] = "x", ["2"] = "y"}` | coerce a copy of the key | high; not executed | `ToDocument.NumericKeyBreaksTraversal`, `ToDocument.NumericKeyResumesAtText` | `ToDocument.ObjectFields` |

=== FILE: from_document.dfy ===
/**
 * Engine document -> Lua value: `ejdb_lua_push_jbl`.
 *
 * Scalars map to the Lua value of the same kind.  An object becomes a new
 * table filled with `lua_settable`, one assignment per field in document
 * order; an array becomes a table holding `__type = "array"` and the element
 * at 0-based position k under key k + 1.  Because the table is filled by
 * assignment, a field or element that converts to nil leaves no entry, and a
 * repeated field name keeps its last value.
 */
module FromDocument {

  import opened Scalars
  import opened Jbl
  import opened Lua

  const TypeKey: LuaValue := String("__type")
  const ArrayTag: LuaValue := String("array")

  /** Every key and value in the table is itself well formed. */
  predicate EntriesWellFormed(t: seq<Entry>)
  {
    forall j :: 0 <= j < |t| ==> WellFormed(t[j].key) && WellFormed(t[j].value)
  }

  /** `ejdb_lua_push_jbl`: the Lua value pushed for a document. */
  function ToLua(d: Jbl): (v: LuaValue)
    decreases d, 1
    ensures v.Nil? <==> d.NoneValue? || d.Null?
    ensures d.Bool? ==> v == Boolean(d.b)
    ensures d.I64? ==> v == Integer(d.i)
    ensures d.F64? ==> v == Number(d.f)
    ensures d.Str? ==> v == String(CString(d.s))
    ensures v.Table? <==> d.Object? || d.Array?
    ensures WellFormed(v)
  {
    match d
    case NoneValue => Nil
    case Null => Nil
    case Bool(b) => Boolean(b)
    case I64(i) => Integer(i)
    case F64(f) => Number(f)
    case Str(s) => String(CString(s))
    case Object(_) => Table(ObjectTable(d, 0, []))
    case Array(_) => Table(ArrayTable(d, 0, [Entry(TypeKey, ArrayTag)]))
  }

  /** The object loop: fields `i..` of `d` assigned into the table built so far. */
  function ObjectTable(d: Jbl, i: nat, acc: seq<Entry>): (r: seq<Entry>)
    requires d.Object? && i <= |d.fields|
    requires TableShape(acc) && EntriesWellFormed(acc)
    decreases d, 0, |d.fields| - i
    ensures TableShape(r) && EntriesWellFormed(r)
  {
    if i == |d.fields| then acc
    else
      var f := d.fields[i];
      ObjectTable(d, i + 1, SetTable(acc, String(f.key), ToLua(f.value)))
  }

  /** The array loop: elements `i..` of `d` assigned under keys `i + 1..`. */
  function ArrayTable(d: Jbl, i: nat, acc: seq<Entry>): (r: seq<Entry>)
    requires d.Array? && i <= |d.items|
    requires TableShape(acc) && EntriesWellFormed(acc)
    decreases d, 0, |d.items| - i
    ensures TableShape(r) && EntriesWellFormed(r)
  {
    if i == |d.items| then acc
    else ArrayTable(d, i + 1, SetTable(acc, Integer(i + 1), ToLua(d.items[i])))
  }

  // ------------------------------------------------------------ properties

  /**
   * Reference reading of an object's table, independent of the loop: the
   * value under `k` is the converted value of the LAST field named `k`, or
   * nil when no field has that name.
   */
  function LastField(fs: seq<Field>, k: LuaValue): LuaValue
    decreases |fs|
  {
    if fs == [] then Nil
    else if k == String(fs[|fs| - 1].key) then ToLua(fs[|fs| - 1].value)
    else LastField(fs[..|fs| - 1], k)
  }

  lemma {:induction false} ObjectTableLookup(d: Jbl, i: nat, acc: seq<Entry>, k: LuaValue)
    requires d.Object? && i <= |d.fields|
    requires TableShape(acc) && EntriesWellFormed(acc)
    requires RawGet(acc, k) == LastField(d.fields[..i], k)
    ensures RawGet(ObjectTable(d, i, acc), k) == LastField(d.fields, k)
    decreases |d.fields| - i
  {
    if i == |d.fields| {
      assert d.fields[..i] == d.fields;
    } else {
      var f := d.fields[i];
      var acc' := SetTable(acc, String(f.key), ToLua(f.value));
      LastFieldStep(d.fields, i, k);
      ObjectTableLookup(d, i + 1, acc', k);
    }
  }

  /** One more field: its name now holds its value, every other name keeps the earlier fields' value. */
  lemma LastFieldStep(fs: seq<Field>, i: nat, k: LuaValue)
    requires i < |fs|
    ensures LastField(fs[..i + 1], k) == if k == String(fs[i].key) then ToLua(fs[i].value) else LastField(fs[..i], k)
  {
    assert fs[..i + 1][..i] == fs[..i];
  }

  /** An object becomes a table whose key `k` holds the converted value of the last field named `k`. */
  lemma ObjectLookup(fs: seq<Field>, k: LuaValue)
    ensures RawGet(ToLua(Object(fs)).entries, k) == LastField(fs, k)
  {
    ObjectTableLookup(Object(fs), 0, [], k);
  }

  /** With unique field names, each field is found under its own name. */
  lemma ObjectFieldLookup(fs: seq<Field>, j: nat)
    requires UniqueKeys(fs)
    requires j < |fs|
    ensures RawGet(ToLua(Object(fs)).entries, String(fs[j].key)) == ToLua(fs[j].value)
  {
    ObjectLookup(fs, String(fs[j].key));
    LastFieldUnique(fs, j);
  }

  lemma {:induction false} LastFieldUnique(fs: seq<Field>, j: nat)
    requires UniqueKeys(fs)
    requires j < |fs|
    ensures LastField(fs, String(fs[j].key)) == ToLua(fs[j].value)
    decreases |fs|
  {
    if j < |fs| - 1 {
      LastFieldUnique(fs[..|fs| - 1], j);
    }
  }

  /** The table entries an object with unique, non-null fields is expected to become, in field order. */
  function FieldEntries(fs: seq<Field>): (es: seq<Entry>)
    ensures |es| == |fs|
    ensures forall j :: 0 <= j < |fs| ==> es[j] == Entry(String(fs[j].key), ToLua(fs[j].value))
  {
    if fs == [] then [] else [Entry(String(fs[0].key), ToLua(fs[0].value))] + FieldEntries(fs[1..])
  }

  /** No field holds a value that converts to nil. */
  predicate NoNilFields(fs: seq<Field>)
  {
    forall j :: 0 <= j < |fs| ==> !fs[j].value.NoneValue? && !fs[j].value.Null?
  }

  lemma {:induction false} ObjectTableAppends(d: Jbl, i: nat)
    requires d.Object? && UniqueKeys(d.fields) && NoNilFields(d.fields)
    requires i <= |d.fields|
    requires TableShape(FieldEntries(d.fields[..i])) && EntriesWellFormed(FieldEntries(d.fields[..i]))
    ensures ObjectTable(d, i, FieldEntries(d.fields[..i])) == FieldEntries(d.fields)
    decreases |d.fields| - i
  {
    var fs := d.fields;
    if i == |fs| {
      assert fs[..i] == fs;
    } else {
      FieldEntriesStep(fs, i);
      ObjectTableAppends(d, i + 1);
    }
  }

  /** The next field's entry extends the entries of the fields before it, under a key not among theirs. */
  lemma FieldEntriesStep(fs: seq<Field>, i: nat)
    requires UniqueKeys(fs)
    requires i < |fs|
    ensures IndexOf(FieldEntries(fs[..i]), String(fs[i].key)).None?
    ensures FieldEntries(fs[..i + 1]) == FieldEntries(fs[..i]) + [Entry(String(fs[i].key), ToLua(fs[i].value))]
  {
    var acc := FieldEntries(fs[..i]);
    forall j | 0 <= j < |acc| ensures acc[j].key != String(fs[i].key) {
      assert fs[..i][j] == fs[j];
    }
    var longer, r := FieldEntries(fs[..i + 1]), acc + [Entry(String(fs[i].key), ToLua(fs[i].value))];
    forall j | 0 <= j < |r| ensures longer[j] == r[j] {
      assert fs[..i + 1][j] == fs[j];
      if j < i {
        assert fs[..i][j] == fs[j];
      }
    }
  }

  /** The model's own order: the entries of an object's table appear in field order. */
  lemma ObjectTableInOrder(fs: seq<Field>)
    requires UniqueKeys(fs) && NoNilFields(fs)
    ensures ToLua(Object(fs)).entries == FieldEntries(fs)
  {
    assert fs[..0] == [];
    ObjectTableAppends(Object(fs), 0);
  }

  /**
   * An object whose field names are unique and whose values are not null
   * becomes a table with exactly one entry per field, keyed by the field
   * name.  Nothing is said about the order `lua_next` visits them in.
   */
  lemma ObjectEntries(fs: seq<Field>)
    requires UniqueKeys(fs) && NoNilFields(fs)
    ensures multiset(ToLua(Object(fs)).entries) == multiset(FieldEntries(fs))
  {
    ObjectTableInOrder(fs);
  }

  /**
   * Reference reading of an array's table: `__type` holds "array", key
   * k + 1 holds the converted element at 0-based position k, every other key
   * holds nil.
   */
  function ArrayKeyValue(xs: seq<Jbl>, k: LuaValue): LuaValue
  {
    if k == TypeKey then ArrayTag
    else if k.Integer? && 1 <= k.i <= |xs| then ToLua(xs[k.i - 1])
    else Nil
  }

  lemma {:induction false} ArrayTableLookup(d: Jbl, i: nat, acc: seq<Entry>, k: LuaValue)
    requires d.Array? && i <= |d.items|
    requires TableShape(acc) && EntriesWellFormed(acc)
    requires RawGet(acc, k) == ArrayKeyValue(d.items[..i], k)
    ensures RawGet(ArrayTable(d, i, acc), k) == ArrayKeyValue(d.items, k)
    decreases |d.items| - i
  {
    if i == |d.items| {
      assert d.items[..i] == d.items;
    } else {
      var acc' := SetTable(acc, Integer(i + 1), ToLua(d.items[i]));
      assert d.items[..i + 1][..i] == d.items[..i];
      ArrayKeyValueStep(d.items, i, k);
      ArrayTableLookup(d, i + 1, acc', k);
    }
  }

  lemma ArrayKeyValueStep(xs: seq<Jbl>, i: nat, k: LuaValue)
    requires i < |xs|
    ensures ArrayKeyValue(xs[..i + 1], k) == if k == Integer(i + 1) then ToLua(xs[i]) else ArrayKeyValue(xs[..i], k)
  {
  }

  /** An array becomes a table tagged `__type = "array"` holding element k at key k + 1. */
  lemma ArrayLookup(xs: seq<Jbl>, k: LuaValue)
    ensures RawGet(ToLua(Array(xs)).entries, k) == ArrayKeyValue(xs, k)
  {
    var acc := [Entry(TypeKey, ArrayTag)];
    assert RawGet(acc, k) == ArrayKeyValue(xs[..0], k);
    ArrayTableLookup(Array(xs), 0, acc, k);
  }
}

=== FILE: jbl.dfy ===
/**
 * The EJDB2 document value (`JBL`), as far as the binding observes it: its
 * kind (`jbl_type`), its scalar payload and its ordered fields or elements.
 */
module Jbl {

  import opened Results
  import opened Scalars

  datatype Jbl =
    | NoneValue                  // JBV_NONE
    | Null                       // JBV_NULL
    | Bool(b: bool)              // JBV_BOOL
    | I64(i: int)                // JBV_I64
    | F64(f: Float)              // JBV_F64
    | Str(s: string)             // JBV_STR
    | Object(fields: seq<Field>) // JBV_OBJECT, fields in document order
    | Array(items: seq<Jbl>)     // JBV_ARRAY

  datatype Field = Field(key: string, value: Jbl)

  /** No field name occurs twice. */
  predicate UniqueKeys(fields: seq<Field>)
  {
    forall i, j :: 0 <= i < j < |fields| ==> fields[i].key != fields[j].key
  }

  /** The position of the first field named `k`, if there is one. */
  function FieldIndex(fields: seq<Field>, k: string): (r: Option<nat>)
    ensures r.Some? ==> r.value < |fields| && fields[r.value].key == k
    ensures r.Some? ==> forall j :: 0 <= j < r.value ==> fields[j].key != k
    ensures r.None? ==> forall j :: 0 <= j < |fields| ==> fields[j].key != k
  {
    if fields == [] then None
    else if fields[0].key == k then Some(0)
    else match FieldIndex(fields[1..], k)
      case None => None
      case Some(j) => Some(j + 1)
  }

  /** With unique names, each field is the first one found under its own name. */
  lemma FieldIndexAt(fields: seq<Field>, j: nat)
    requires UniqueKeys(fields)
    requires j < |fields|
    ensures FieldIndex(fields, fields[j].key) == Some(j)
  {
  }

  /**
   * `x` is `y` with the fields of every object, at every depth, possibly in
   * another order: objects have the same field names, and under each name
   * the same value up to field order; arrays match element for element;
   * scalars are equal.
   */
  predicate SameUpToFieldOrder(x: Jbl, y: Jbl)
    decreases y
  {
    match y
    case Object(gs) =>
      && x.Object? && |x.fields| == |gs| && UniqueKeys(x.fields) && UniqueKeys(gs)
      && (forall i :: 0 <= i < |x.fields| ==> FieldIndex(gs, x.fields[i].key).Some?)
      && (forall j :: 0 <= j < |gs| ==>
            FieldIndex(x.fields, gs[j].key).Some? &&
            SameUpToFieldOrder(x.fields[FieldIndex(x.fields, gs[j].key).value].value, gs[j].value))
    case Array(ys) =>
      x.Array? && |x.items| == |ys| && forall i :: 0 <= i < |ys| ==> SameUpToFieldOrder(x.items[i], ys[i])
    case _ => x == y
  }
}

=== FILE: lua.dfy ===
/**
 * The Lua 5.3/5.4 values the binding reads from and pushes onto the Lua
 * stack, and the few Lua C API operations whose outcome depends on the
 * value: type names, string and integer coercion, raw table lookup, table
 * assignment and `lua_next` traversal.
 *
 * A table is a sequence of entries with distinct keys; the order of the
 * sequence is the order `lua_next` visits them in.  Coercions that depend on
 * floating-point formatting or on Lua's numeral parser are supplied by the
 * `Host` record.
 */
module Lua {

  import opened Results
  import opened Scalars
  import opened Jbl

  /** Full userdata the binding can meet, told apart by their metatable. */
  datatype Udata =
    | DatabaseHandle(db: nat)      // metatable "EJDB*"
    | QueryHandle(query: nat)      // metatable "JQL*"
    | DocumentHandle(doc: Jbl)     // a userdata that holds an engine document ("JBL*")
    | Foreign(name: Option<string>) // any other userdata; `name` is its metatable's __name

  datatype LuaValue =
    | Nil
    | Boolean(b: bool)
    | Integer(i: int)            // the integer subtype of number
    | Number(f: Float)           // the float subtype of number
    | String(s: string)
    | Table(entries: seq<Entry>)
    | Function(fn: nat)
    | Userdata(u: Udata)
    | Thread(th: nat)

  datatype Entry = Entry(key: LuaValue, value: LuaValue)

  /** Coercions the Lua runtime performs with its C library. */
  datatype Host = Host(
    floatText: Float -> string,          // lua_tolstring of a float ("%.14g")
    floatInteger: Float -> Option<int>,  // the integer a float equals exactly, if any
    stringInteger: string -> Option<int>, // a numeral string with an integer value
    stringIsNumber: string -> bool       // the string is a numeral at all
  )

  const MetaDatabase: string := "EJDB*"
  const MetaQuery: string := "JQL*"
  /** No metatable for documents is registered by the binding; this name stands for one. */
  const MetaDocument: string := "JBL*"

  /** The name of a userdata's metatable, as `luaL_newmetatable` stored it. */
  function MetaName(u: Udata): Option<string>
  {
    match u
    case DatabaseHandle(_) => Some(MetaDatabase)
    case QueryHandle(_) => Some(MetaQuery)
    case DocumentHandle(_) => Some(MetaDocument)
    case Foreign(name) => name
  }

  /** `lua_typename(L, lua_type(L, i))` */
  function TypeName(v: LuaValue): string
  {
    match v
    case Nil => "nil"
    case Boolean(_) => "boolean"
    case Integer(_) => "number"
    case Number(_) => "number"
    case String(_) => "string"
    case Table(_) => "table"
    case Function(_) => "function"
    case Userdata(_) => "userdata"
    case Thread(_) => "thread"
  }

  /** The type name `luaL_typeerror` reports: a metatable's __name wins. */
  function TypeErrorName(v: LuaValue): string
  {
    if v.Userdata? && MetaName(v.u).Some? then MetaName(v.u).value else TypeName(v)
  }

  /** `lua_isstring`: strings and numbers both pass. */
  predicate IsString(v: LuaValue)
  {
    v.String? || v.Integer? || v.Number?
  }

  /** `lua_tolstring` on a value that passes `lua_isstring`. */
  function ToText(v: LuaValue, host: Host): string
    requires IsString(v)
  {
    match v
    case String(s) => s
    case Integer(i) => DecimalText(i)
    case Number(f) => host.floatText(f)
  }

  /** `luaL_checkstring(L, arg)` */
  function CheckString(v: LuaValue, arg: int, host: Host): (r: Result<string>)
    ensures r.Ok? <==> IsString(v)
    ensures v.String? ==> r == Ok(v.s)
    ensures v.Integer? ==> r == Ok(DecimalText(v.i))
    ensures r.Err? ==> r.error == BadArgument(arg, "string", TypeErrorName(v))
  {
    if IsString(v) then Ok(ToText(v, host)) else Err(BadArgument(arg, "string", TypeErrorName(v)))
  }

  /** `luaL_checkinteger(L, arg)` */
  function CheckInteger(v: LuaValue, arg: int, host: Host): (r: Result<int>)
    ensures v.Integer? ==> r == Ok(v.i)
    ensures r.Ok? ==> v.Integer? || v.Number? || v.String?
    ensures !(v.Integer? || v.Number? || v.String?) ==> r == Err(BadArgument(arg, "number", TypeErrorName(v)))
  {
    match v
    case Integer(i) => Ok(i)
    case Number(f) =>
      if host.floatInteger(f).Some? then Ok(host.floatInteger(f).value) else Err(NoIntegerRepresentation(arg))
    case String(s) =>
      if host.stringInteger(s).Some? then Ok(host.stringInteger(s).value)
      else if host.stringIsNumber(s) then Err(NoIntegerRepresentation(arg))
      else Err(BadArgument(arg, "number", "string"))
    case _ => Err(BadArgument(arg, "number", TypeErrorName(v)))
  }

  /**
   * `luaL_checkudata(L, arg, meta)`.  Lua compares metatables by identity,
   * so a foreign userdata whose __name merely equals `meta` is rejected.
   */
  function CheckUdata(v: LuaValue, arg: int, meta: string): (r: Result<Udata>)
    ensures r.Ok? <==> v.Userdata? && !v.u.Foreign? && MetaName(v.u) == Some(meta)
    ensures r.Ok? ==> r.value == v.u
    ensures r.Err? ==> r.error == BadArgument(arg, meta, TypeErrorName(v))
  {
    if v.Userdata? && !v.u.Foreign? && MetaName(v.u) == Some(meta) then Ok(v.u)
    else Err(BadArgument(arg, meta, TypeErrorName(v)))
  }

  /** Stack slot `i` (1-based) after `lua_settop`: missing arguments read as nil. */
  function Arg(args: seq<LuaValue>, i: nat): (v: LuaValue)
    requires i >= 1
    ensures i <= |args| ==> v == args[i - 1]
    ensures i > |args| ==> v == Nil
  {
    if i <= |args| then args[i - 1] else Nil
  }

  /**
   * The type name `luaL_typeerror` reports for slot `i` when no
   * `lua_settop` padded the stack: an absent slot is "no value"
   * (`LUA_TNONE`), a present one is named as usual.
   */
  function SlotTypeName(args: seq<LuaValue>, i: nat): (name: string)
    requires i >= 1
    ensures i > |args| ==> name == "no value"
    ensures i <= |args| ==> name == TypeErrorName(args[i - 1])
  {
    if i <= |args| then TypeErrorName(args[i - 1]) else "no value"
  }

  /** `luaL_checkstring(L, i)` on the unpadded argument list. */
  function CheckStringSlot(args: seq<LuaValue>, i: nat, host: Host): (r: Result<string>)
    requires i >= 1
    ensures r.Ok? <==> IsString(Arg(args, i))
    ensures r.Ok? ==> r.value == ToText(Arg(args, i), host)
    ensures r.Err? ==> r.error == BadArgument(i, "string", SlotTypeName(args, i))
  {
    if i <= |args| then CheckString(args[i - 1], i, host) else Err(BadArgument(i, "string", "no value"))
  }

  // ---------------------------------------------------------------- tables

  /** The position of key `k`, if the table holds it. */
  function IndexOf(t: seq<Entry>, k: LuaValue): (r: Option<nat>)
    ensures r.Some? ==> r.value < |t| && t[r.value].key == k
    ensures r.Some? ==> forall j :: 0 <= j < r.value ==> t[j].key != k
    ensures r.None? ==> forall j :: 0 <= j < |t| ==> t[j].key != k
  {
    if t == [] then None
    else if t[0].key == k then Some(0)
    else match IndexOf(t[1..], k)
      case None => None
      case Some(j) => Some(j + 1)
  }

  predicate DistinctKeys(t: seq<Entry>)
  {
    forall i, j :: 0 <= i < j < |t| ==> t[i].key != t[j].key
  }

  /** What the Lua runtime keeps true of every table: keys are distinct and neither keys nor values are nil. */
  predicate TableShape(t: seq<Entry>)
  {
    && DistinctKeys(t)
    && forall i :: 0 <= i < |t| ==> t[i].key != Nil && t[i].value != Nil
  }

  /** Every table reachable from `v` has the shape of a Lua table. */
  predicate WellFormed(v: LuaValue)
    decreases v
  {
    v.Table? ==>
      && TableShape(v.entries)
      && forall i :: 0 <= i < |v.entries| ==> WellFormed(v.entries[i].key) && WellFormed(v.entries[i].value)
  }

  /**
   * `a` is `b` with the entries of every table, at every depth, possibly
   * visited in another order: the same keys, and under each key a
   * reordering of the same value.  The order `lua_next` visits a table in
   * depends on how the runtime stored it, so a statement about the tables
   * the binding builds is made for every reordering.
   */
  predicate Reordered(a: LuaValue, b: LuaValue)
    decreases b
  {
    if b.Table? then
      && a.Table? && |a.entries| == |b.entries| && DistinctKeys(a.entries)
      && (forall i :: 0 <= i < |a.entries| ==> IndexOf(b.entries, a.entries[i].key).Some?)
      && (forall j :: 0 <= j < |b.entries| ==>
            IndexOf(a.entries, b.entries[j].key).Some? && Reordered(RawGet(a.entries, b.entries[j].key), b.entries[j].value))
    else a == b
  }

  /** The order a table was built in is one of the orders it can be visited in. */
  lemma {:induction false} ReorderedReflexive(v: LuaValue)
    requires WellFormed(v)
    ensures Reordered(v, v)
    decreases v
  {
    if v.Table? {
      forall j | 0 <= j < |v.entries|
        ensures IndexOf(v.entries, v.entries[j].key).Some?
        ensures Reordered(RawGet(v.entries, v.entries[j].key), v.entries[j].value)
      {
        RawGetAt(v.entries, j);
        ReorderedReflexive(v.entries[j].value);
      }
    }
  }

  /** `lua_rawget`: the value stored under `k`, or nil. */
  function RawGet(t: seq<Entry>, k: LuaValue): LuaValue
  {
    match IndexOf(t, k)
    case None => Nil
    case Some(i) => t[i].value
  }

  /** In a table with distinct keys, each entry is found under its own key. */
  lemma RawGetAt(t: seq<Entry>, i: nat)
    requires DistinctKeys(t)
    requires i < |t|
    ensures IndexOf(t, t[i].key) == Some(i)
    ensures RawGet(t, t[i].key) == t[i].value
  {
  }

  /**
   * `lua_next(L, t)` with key `k` on the stack: the entry that follows `k`
   * (the first entry when `k` is nil), none at the end of the traversal,
   * and an error when `k` is not a key of the table.
   */
  function Next(t: seq<Entry>, k: LuaValue): (r: Result<Option<Entry>>)
    ensures k == Nil ==> r.Ok? && (r.value.Some? <==> |t| > 0)
    ensures r.Err? <==> k != Nil && forall j :: 0 <= j < |t| ==> t[j].key != k
  {
    if k == Nil then
      if |t| == 0 then Ok(None) else Ok(Some(t[0]))
    else match IndexOf(t, k)
      case None => Err(InvalidKeyToNext)
      case Some(i) => if i + 1 < |t| then Ok(Some(t[i + 1])) else Ok(None)
  }

  /**
   * Traversing with `lua_next`, handing back each visited key unchanged,
   * visits the entries in sequence order and then stops.
   */
  lemma NextVisitsInOrder(t: seq<Entry>, i: nat)
    requires TableShape(t)
    requires i <= |t|
    ensures Next(t, if i == 0 then Nil else t[i - 1].key) == Ok(if i < |t| then Some(t[i]) else None)
  {
  }

  /**
   * `lua_settable(L, t)` / `lua_setfield`: afterwards `k` holds `v` (nil
   * removes it) and every other key keeps its value.  A new key goes after
   * the existing entries.
   */
  function SetTable(t: seq<Entry>, k: LuaValue, v: LuaValue): (r: seq<Entry>)
    requires TableShape(t)
    requires k != Nil
    ensures TableShape(r)
    ensures forall j :: 0 <= j < |r| ==> r[j] in t || r[j] == Entry(k, v)
    ensures forall k' :: RawGet(r, k') == if k' == k then v else RawGet(t, k')
    ensures IndexOf(t, k).None? && v != Nil ==> r == t + [Entry(k, v)]
    ensures IndexOf(t, k).None? && v == Nil ==> r == t
  {
    match IndexOf(t, k)
    case None =>
      if v == Nil then t
      else
        var r := t + [Entry(k, v)];
        forall k' ensures RawGet(r, k') == if k' == k then v else RawGet(t, k') {
          if k' == k {
            RawGetAt(r, |t|);
          } else if IndexOf(t, k').Some? {
            RawGetAt(r, IndexOf(t, k').value);
          }
        }
        r
    case Some(i) =>
      if v == Nil then
        var r := t[..i] + t[i + 1..];
        forall k' ensures RawGet(r, k') == if k' == k then v else RawGet(t, k') {
          RemoveLookup(t, i, k');
        }
        r
      else
        var r := t[i := Entry(k, v)];
        forall k' ensures RawGet(r, k') == if k' == k then v else RawGet(t, k') {
          ReplaceLookup(t, i, v, k');
        }
        r
  }

  /** Removing one entry keeps the others, shifted down past it, and keeps the table's shape. */
  lemma RemoveShape(t: seq<Entry>, i: nat) returns (r: seq<Entry>)
    requires TableShape(t)
    requires i < |t|
    ensures r == t[..i] + t[i + 1..]
    ensures |r| == |t| - 1
    ensures forall j :: 0 <= j < |r| ==> r[j] == if j < i then t[j] else t[j + 1]
    ensures TableShape(r)
  {
    r := t[..i] + t[i + 1..];
    assert forall j :: 0 <= j < |r| ==> r[j] == if j < i then t[j] else t[j + 1];
  }

  /** Removing the entry at `i` leaves every other key's value in place. */
  lemma RemoveLookup(t: seq<Entry>, i: nat, k': LuaValue)
    requires TableShape(t)
    requires i < |t|
    ensures TableShape(t[..i] + t[i + 1..])
    ensures RawGet(t[..i] + t[i + 1..], k') == if k' == t[i].key then Nil else RawGet(t, k')
  {
    var r := RemoveShape(t, i);
    if k' == t[i].key || IndexOf(t, k').None? {
      RemoveAbsent(t, i, k');
    } else {
      var j := IndexOf(t, k').value;
      var jr := if j > i then j - 1 else j;
      assert r[jr] == t[j];
      RawGetAt(r, jr);
    }
  }

  /** A key that was absent, or was the removed entry's, is absent after the removal. */
  lemma RemoveAbsent(t: seq<Entry>, i: nat, k': LuaValue)
    requires TableShape(t)
    requires i < |t|
    requires k' == t[i].key || IndexOf(t, k').None?
    ensures IndexOf(t[..i] + t[i + 1..], k').None?
  {
    var r := RemoveShape(t, i);
    assert forall j :: 0 <= j < |r| ==> r[j].key != k';
  }

  /** Overwriting the value at `i` leaves every other key's value in place. */
  lemma ReplaceLookup(t: seq<Entry>, i: nat, v: LuaValue, k': LuaValue)
    requires TableShape(t)
    requires i < |t|
    requires v != Nil
    ensures TableShape(t[i := Entry(t[i].key, v)])
    ensures RawGet(t[i := Entry(t[i].key, v)], k') == if k' == t[i].key then v else RawGet(t, k')
  {
    var r := t[i := Entry(t[i].key, v)];
    if k' == t[i].key {
      RawGetAt(r, i);
    } else if IndexOf(t, k').Some? {
      RawGetAt(r, IndexOf(t, k').value);
    }
  }
}

=== FILE: open_mode.dfy ===
/**
 * The open-mode string of `ejdb.open(path, mode)` (`ejdb_lua_open`): each
 * character adds a flag to the `iwkv_openflags` passed to `ejdb_open`.
 */
module OpenMode {

  import opened Results
  import opened Scalars
  import opened Lua

  datatype OpenFlag =
    | Truncate  // 'w', IWKV_TRUNC
    | ReadOnly  // 'r', IWKV_RDONLY

  /** The flag a mode character stands for. */
  function FlagOf(c: char): (r: Option<OpenFlag>)
    ensures r == Some(Truncate) <==> c == 'w'
    ensures r == Some(ReadOnly) <==> c == 'r'
    ensures r.None? <==> c != 'w' && c != 'r'
  {
    if c == 'w' then Some(Truncate) else if c == 'r' then Some(ReadOnly) else None
  }

  predicate IsModeChar(c: char)
  {
    c == 'w' || c == 'r'
  }

  /**
   * The mode loop, advancing one character per iteration: the flags of all
   * characters, or an error naming the first character that is neither
   * `w` nor `r`.
   */
  function DecodeOpenMode(s: string): (r: Result<set<OpenFlag>>)
    ensures r.Ok? <==> forall i :: 0 <= i < |s| ==> IsModeChar(s[i])
    ensures r.Ok? ==> (Truncate in r.value <==> 'w' in s)
    ensures r.Ok? ==> (ReadOnly in r.value <==> 'r' in s)
    ensures r.Err? ==> exists i ::
      && 0 <= i < |s|
      && !IsModeChar(s[i])
      && (forall j :: 0 <= j < i ==> IsModeChar(s[j]))
      && r.error == InvalidOpenModeChar(s[i])
  {
    if s == [] then Ok({})
    else match FlagOf(s[0])
      case None => Err(InvalidOpenModeChar(s[0]))
      case Some(f) =>
        var rest :- DecodeOpenMode(s[1..]);
        assert forall c :: c in s <==> c == s[0] || c in s[1..];
        Ok({f} + rest)
  }

  /** A canonical mode string for a set of flags. */
  function EncodeOpenMode(flags: set<OpenFlag>): string
  {
    (if Truncate in flags then "w" else "") + (if ReadOnly in flags then "r" else "")
  }

  /** Every set of flags is reached by some mode string, and decoding recovers it. */
  lemma DecodeEncode(flags: set<OpenFlag>)
    ensures DecodeOpenMode(EncodeOpenMode(flags)) == Ok(flags)
  {
    var s := EncodeOpenMode(flags);
    var r := DecodeOpenMode(s);
    assert r.Ok?;
    forall f ensures f in r.value <==> f in flags {
      match f
      case Truncate =>
        assert 'w' in s <==> Truncate in flags;
      case ReadOnly =>
        assert 'r' in s <==> ReadOnly in flags;
    }
    assert r.value == flags;
  }

  /** The empty mode opens with no flags; repeating or reordering characters changes nothing. */
  lemma DecodeSameCharacters(s: string, s': string)
    requires forall c :: c in s <==> c in s'
    ensures DecodeOpenMode(s).Ok? <==> DecodeOpenMode(s').Ok?
    ensures DecodeOpenMode(s).Ok? ==> DecodeOpenMode(s') == DecodeOpenMode(s)
    ensures DecodeOpenMode("") == Ok({})
  {
    if DecodeOpenMode(s).Ok? {
      forall i | 0 <= i < |s'| ensures IsModeChar(s'[i]) {
        assert s'[i] in s;
      }
      var a, b := DecodeOpenMode(s).value, DecodeOpenMode(s').value;
      forall f ensures f in a <==> f in b {
        match f
        case Truncate =>
        case ReadOnly =>
      }
      assert a == b;
    } else if DecodeOpenMode(s').Ok? {
      forall i | 0 <= i < |s| ensures IsModeChar(s[i]) {
        assert s[i] in s';
      }
    }
  }

  /** What `ejdb_lua_open` hands to `ejdb_open`. */
  datatype OpenOptions = OpenOptions(path: string, flags: set<OpenFlag>)

  /**
   * `ejdb_lua_open` up to the engine call: the path and mode arguments are
   * checked as strings, read as C strings, and the mode is decoded.
   */
  function OpenRequest(args: seq<LuaValue>, host: Host): (r: Result<OpenOptions>)
    ensures !IsString(Arg(args, 1)) ==> r == Err(BadArgument(1, "string", SlotTypeName(args, 1)))
    ensures IsString(Arg(args, 1)) && !IsString(Arg(args, 2)) ==> r == Err(BadArgument(2, "string", SlotTypeName(args, 2)))
    ensures r.Ok? <==> IsString(Arg(args, 1)) && IsString(Arg(args, 2)) && DecodeOpenMode(CString(ToText(Arg(args, 2), host))).Ok?
    ensures r.Ok? ==> r.value.path == CString(ToText(Arg(args, 1), host))
    ensures r.Ok? ==> (Truncate in r.value.flags <==> 'w' in CString(ToText(Arg(args, 2), host)))
    ensures r.Ok? ==> (ReadOnly in r.value.flags <==> 'r' in CString(ToText(Arg(args, 2), host)))
  {
    var path :- CheckStringSlot(args, 1, host);
    var mode :- CheckStringSlot(args, 2, host);
    var flags :- DecodeOpenMode(CString(mode));
    Ok(OpenOptions(CString(path), flags))
  }

  /**
   * `ejdb_lua_open` does not pad the stack, so a missing path or mode is
   * reported as "no value", not as nil.
   */
  lemma MissingArgumentsNoValue(host: Host)
    ensures OpenRequest([], host) == Err(BadArgument(1, "string", "no value"))
    ensures OpenRequest([String("db")], host) == Err(BadArgument(2, "string", "no value"))
    ensures OpenRequest([Nil, String("w")], host) == Err(BadArgument(1, "string", "nil"))
  {
  }

  // ------------------------------------------- the code as written, where it differs

  /** The state of the mode loop: the C string `mode_string` points at, and the flags so far. */
  datatype ModeLoop = ModeLoop(rest: string, flags: set<OpenFlag>)

  /**
   * One iteration of lines 33-40 as written: the current character is
   * examined but `mode_string` is never advanced.  Runs while the loop
   * condition `mode_string[0]` holds.
   */
  function ModeStepAsWritten(st: ModeLoop): (r: Result<ModeLoop>)
    requires |st.rest| > 0 && st.rest[0] != '\0'
    ensures r.Ok? ==> r.value.rest == st.rest
    ensures r.Err? <==> !IsModeChar(st.rest[0])
  {
    match FlagOf(st.rest[0])
    case None => Err(InvalidOpenModeChar(st.rest[0]))
    case Some(f) => Ok(ModeLoop(st.rest, st.flags + {f}))
  }

  /** The loop as written after at most `n` iterations; it stops early once its condition fails. */
  function ModeLoopAsWritten(st: ModeLoop, n: nat): Result<ModeLoop>
    decreases n
  {
    if n == 0 || |st.rest| == 0 || st.rest[0] == '\0' then Ok(st)
    else
      var next :- ModeStepAsWritten(st);
      ModeLoopAsWritten(next, n - 1)
  }

  /**
   * A mode string that starts with `w` or `r` keeps the loop as written
   * running for ever: after any number of iterations its condition still
   * holds.  `DecodeOpenMode` is the loop that advances.
   */
  lemma {:induction false} ModeLoopAsWrittenNeverExits(s: string, flags: set<OpenFlag>, n: nat)
    requires |s| > 0 && IsModeChar(s[0])
    ensures ModeLoopAsWritten(ModeLoop(s, flags), n).Ok?
    ensures ModeLoopAsWritten(ModeLoop(s, flags), n).value.rest == s
    decreases n
  {
    if n > 0 {
      var next := ModeStepAsWritten(ModeLoop(s, flags));
      ModeLoopAsWrittenNeverExits(s, next.value.flags, n - 1);
    }
  }
}

=== FILE: query_set.dfy ===
/**
 * `query:set(name, index, value)` (`ejdb_lua_query_set`): binds an integer
 * placeholder value of a compiled query.  Only values of Lua's integer
 * subtype are accepted; they are bound with `jql_set_i64`.
 */
module QuerySet {

  import opened Results
  import opened Scalars
  import opened Lua

  /** A placeholder is addressed by its name and a C `int` index. */
  datatype Placeholder = Placeholder(name: string, index: int)

  datatype Binding = I64Binding(value: int)

  /**
   * The placeholder bindings a compiled query holds, keyed by (name, index).
   * How `jql_set_i64` stores a binding is up to the engine; this shape is an
   * assumption about it.
   */
  datatype Query = Query(bindings: map<Placeholder, Binding>)

  /** The placeholder `query:set` addresses: the name as a C string, the index narrowed to `int`. */
  function PlaceholderOf(name: string, index: int): (p: Placeholder)
    ensures p.name <= name && '\0' !in p.name && (|p.name| < |name| ==> name[|p.name|] == '\0')
    ensures -TwoTo31 <= p.index < TwoTo31 && (p.index - index) % TwoTo32 == 0
    ensures '\0' !in name && -TwoTo31 <= index < TwoTo31 ==> p == Placeholder(name, index)
  {
    Placeholder(CString(name), WrapInt32(index))
  }

  /** Slots 1-3 pass their `luaL_check*` tests: a query, a string (or number), an integer. */
  predicate ArgumentsChecked(args: seq<LuaValue>, host: Host)
  {
    && CheckUdata(Arg(args, 1), 1, MetaQuery).Ok?
    && IsString(Arg(args, 2))
    && CheckInteger(Arg(args, 3), 3, host).Ok?
  }

  /** The placeholder that checked arguments address. */
  function Target(args: seq<LuaValue>, host: Host): Placeholder
    requires ArgumentsChecked(args, host)
  {
    PlaceholderOf(ToText(Arg(args, 2), host), CheckInteger(Arg(args, 3), 3, host).value)
  }

  /**
   * `ejdb_lua_query_set` after `lua_settop(L, 4)`.  Slot 1 must be a query,
   * slot 2 a string (or number), slot 3 an integer; then slot 4 must be of
   * the integer subtype.  `rc` is the code `jql_set_i64` returns; a non-zero
   * code is raised.
   */
  function Set(q: Query, args: seq<LuaValue>, host: Host, rc: nat): (r: Result<Query>)
    ensures CheckUdata(Arg(args, 1), 1, MetaQuery).Err? ==> r == Err(BadArgument(1, MetaQuery, TypeErrorName(Arg(args, 1))))
    ensures r.Ok? <==> ArgumentsChecked(args, host) && Arg(args, 4).Integer? && rc == 0
    ensures r.Ok? ==> r.value.bindings == q.bindings[Target(args, host) := I64Binding(Arg(args, 4).i)]
    ensures (ArgumentsChecked(args, host) && !Arg(args, 4).Integer?) ==> r == Err(InvalidTypeForQuerySet(TypeName(Arg(args, 4))))
    ensures (ArgumentsChecked(args, host) && Arg(args, 4).Integer? && rc != 0) ==> r == Err(EngineError(rc))
  {
    var _ :- CheckUdata(Arg(args, 1), 1, MetaQuery);
    var name :- CheckString(Arg(args, 2), 2, host);
    var index :- CheckInteger(Arg(args, 3), 3, host);
    var value := Arg(args, 4);
    if value.Integer? then
      if rc != 0 then Err(EngineError(rc))
      else Ok(Query(q.bindings[PlaceholderOf(name, index) := I64Binding(value.i)]))
    else Err(InvalidTypeForQuerySet(TypeName(value)))
  }

  /** Whether `query:set` succeeds does not depend on the bindings already present. */
  lemma SetOnAnyQuery(q: Query, q': Query, args: seq<LuaValue>, host: Host)
    requires Set(q, args, host, 0).Ok?
    ensures Set(q', args, host, 0) == Ok(Query(q'.bindings[Target(args, host) := I64Binding(Arg(args, 4).i)]))
  {
  }

  /**
   * Setting the same placeholder twice keeps only the second value: the
   * result is the same as the second call alone.
   */
  lemma SetOverwrites(q: Query, a1: seq<LuaValue>, a2: seq<LuaValue>, host: Host)
    requires Set(q, a1, host, 0).Ok?
    requires Set(q, a2, host, 0).Ok?
    requires Target(a1, host) == Target(a2, host)
    ensures Set(Set(q, a1, host, 0).value, a2, host, 0) == Set(q, a2, host, 0)
  {
    var p := Target(a1, host);
    var b1, b2 := I64Binding(Arg(a1, 4).i), I64Binding(Arg(a2, 4).i);
    SetOnAnyQuery(q, q, a1, host);
    SetOnAnyQuery(q, q, a2, host);
    SetOnAnyQuery(q, Set(q, a1, host, 0).value, a2, host);
    assert q.bindings[p := b1][p := b2] == q.bindings[p := b2];
  }

  /** Setting two different placeholders gives the same bindings in either order. */
  lemma SetCommutes(q: Query, a1: seq<LuaValue>, a2: seq<LuaValue>, host: Host)
    requires Set(q, a1, host, 0).Ok?
    requires Set(q, a2, host, 0).Ok?
    requires Target(a1, host) != Target(a2, host)
    ensures Set(Set(q, a1, host, 0).value, a2, host, 0) == Set(Set(q, a2, host, 0).value, a1, host, 0)
  {
    var p1, p2 := Target(a1, host), Target(a2, host);
    var b1, b2 := I64Binding(Arg(a1, 4).i), I64Binding(Arg(a2, 4).i);
    SetOnAnyQuery(q, q, a1, host);
    SetOnAnyQuery(q, q, a2, host);
    SetOnAnyQuery(q, Set(q, a1, host, 0).value, a2, host);
    SetOnAnyQuery(q, Set(q, a2, host, 0).value, a1, host);
    UpdatesCommute(q.bindings, p1, b1, p2, b2);
  }

  lemma UpdatesCommute(m: map<Placeholder, Binding>, p1: Placeholder, b1: Binding, p2: Placeholder, b2: Binding)
    requires p1 != p2
    ensures m[p1 := b1][p2 := b2] == m[p2 := b2][p1 := b1]
  {
  }

  /** Indexes that differ by a multiple of 2^32 address the same placeholder once narrowed to `int`. */
  lemma IndexNarrowing(name: string, index: int)
    ensures PlaceholderOf(name, index + TwoTo32) == PlaceholderOf(name, index)
  {
  }
}

=== FILE: results.dfy ===
/**
 * Outcomes of the binding's operations.  The C code reports failure in two
 * ways: `luaL_error` unwinds the Lua stack with a formatted message, and
 * engine calls return a non-zero `iwrc` code.  Both become a tagged `Error`
 * carried by `Result`.
 */
module Results {

  datatype Option<+T> = None | Some(value: T)

  datatype Error =
    /** luaL_error "invalid type to serialize: %s" */
    | InvalidTypeToSerialize(typeName: string)
    /** luaL_error "invalid character in open mode: %c" */
    | InvalidOpenModeChar(c: char)
    /** luaL_error "invalid type for query:set: %s" */
    | InvalidTypeForQuerySet(typeName: string)
    /** a luaL_check* helper rejected argument `arg`: "<expected> expected, got <got>" */
    | BadArgument(arg: int, expected: string, got: string)
    /** luaL_checkinteger on a number that has no integer value */
    | NoIntegerRepresentation(arg: int)
    /** lua_next was handed a key that is not in the table */
    | InvalidKeyToNext
    /** a non-zero result code returned by the EJDB2 engine */
    | EngineError(rc: nat)

  datatype Result<+T> = Ok(value: T) | Err(error: Error) {
    predicate IsFailure() {
      Err?
    }

    function PropagateFailure<U>(): Result<U>
      requires Err?
    {
      Err(error)
    }

    function Extract(): T
      requires Ok?
    {
      value
    }
  }
}

=== FILE: round_trip.dfy ===
/**
 * What survives a document -> Lua -> document round trip
 * (`ejdb_lua_push_jbl` followed by `ejdb_lua_jbl_from_lua`), and what does
 * not.
 */
module RoundTrip {

  import opened Results
  import opened Scalars
  import opened Jbl
  import opened Lua
  import opened ToDocument
  import opened FromDocument

  /**
   * Documents built from NUL-free strings, booleans and objects with unique,
   * NUL-free field names.  Integers, floats and nulls change kind on the way
   * back, and arrays do not come back as they were (see `ArrayGainsTag` and
   * `ArrayClassifiedByFirstElement`), so they are excluded.
   */
  predicate Plain(d: Jbl)
    decreases d
  {
    match d
    case Bool(_) => true
    case Str(s) => '\0' !in s
    case Object(fs) => UniqueKeys(fs) && forall j :: 0 <= j < |fs| ==> '\0' !in fs[j].key && Plain(fs[j].value)
    case _ => false
  }

  /**
   * A plain object pushed to Lua and read back is the same object up to the
   * order of its fields, whatever order `lua_next` visits each table in.
   */
  lemma {:induction false} ObjectRoundTrip(d: Jbl, v: LuaValue, host: Host)
    requires d.Object? && Plain(d)
    requires Reordered(v, ToLua(d))
    ensures FromLua(v, host).Ok?
    ensures SameUpToFieldOrder(FromLua(v, host).value, d)
    decreases d, 1
  {
    var fs := d.fields;
    var rs := VisitedFields(d, v, host);
    forall j | 0 <= j < |fs|
      ensures FieldIndex(rs, fs[j].key).Some?
      ensures SameUpToFieldOrder(rs[FieldIndex(rs, fs[j].key).value].value, fs[j].value)
    {
      var i := FieldVisitedAt(d, v, j);
      FieldIndexAt(rs, i);
      FieldIndexAt(fs, j);
    }
    SameFields(rs, fs);
  }

  lemma {:induction false} ValueRoundTrip(d: Jbl, v: LuaValue, host: Host)
    requires Plain(d)
    requires Reordered(v, ToLua(d))
    ensures SetField(v, host).Ok?
    ensures SameUpToFieldOrder(SetField(v, host).value, d)
    decreases d, 2
  {
    match d
    case Bool(_) =>
    case Str(s) =>
      assert CString(s) == s;
    case Object(_) =>
      ObjectRoundTrip(d, v, host);
  }

  /**
   * The object a reordered table converts to: field i is named by the i-th
   * key visited and holds, up to field order, the value of the document
   * field of that name.
   */
  lemma {:induction false} VisitedFields(d: Jbl, v: LuaValue, host: Host) returns (rs: seq<Field>)
    requires d.Object? && Plain(d)
    requires Reordered(v, ToLua(d))
    ensures FromLua(v, host) == Ok(Object(rs))
    ensures |rs| == |v.entries| == |d.fields| && UniqueKeys(rs)
    ensures forall i :: 0 <= i < |rs| ==> v.entries[i].key == String(rs[i].key)
    ensures forall i :: 0 <= i < |rs| ==>
      FieldIndex(d.fields, rs[i].key).Some? && SameUpToFieldOrder(rs[i].value, d.fields[FieldIndex(d.fields, rs[i].key).value].value)
    decreases d, 0, 2
  {
    rs := VisitedFieldsMatch(d, v, host);
    StringKeyedTableIsObject(v, host);
  }

  /** The object loop over a reordered object table: field i is the i-th entry, named by its key. */
  lemma {:induction false} VisitedFieldsMatch(d: Jbl, v: LuaValue, host: Host) returns (rs: seq<Field>)
    requires d.Object? && Plain(d)
    requires Reordered(v, ToLua(d))
    ensures v.Table? && DistinctKeys(v.entries) && ObjectFields(v, 0, host) == Ok(rs)
    ensures |rs| == |v.entries| == |d.fields|
    ensures forall i :: 0 <= i < |v.entries| ==> v.entries[i].key.String? && '\0' !in v.entries[i].key.s
    ensures forall i :: 0 <= i < |rs| ==> v.entries[i].key == String(rs[i].key)
    ensures forall i :: 0 <= i < |rs| ==>
      FieldIndex(d.fields, rs[i].key).Some? && SameUpToFieldOrder(rs[i].value, d.fields[FieldIndex(d.fields, rs[i].key).value].value)
    decreases d, 0, 1
  {
    VisitedValues(d, v, host);
    rs := ObjectFields(v, 0, host).value;
    forall i | 0 <= i < |rs|
      ensures v.entries[i].key == String(rs[i].key)
      ensures FieldIndex(d.fields, rs[i].key).Some?
      ensures SameUpToFieldOrder(rs[i].value, d.fields[FieldIndex(d.fields, rs[i].key).value].value)
    {
      StringKeyedField(v, i, host);
    }
  }

  /** Field i of an object read from a table is entry i's NUL-free string key with its converted value. */
  lemma StringKeyedField(v: LuaValue, i: nat, host: Host)
    requires v.Table? && i < |v.entries| && ObjectFields(v, 0, host).Ok?
    requires v.entries[i].key.String? && '\0' !in v.entries[i].key.s
    ensures SetField(v.entries[i].value, host).Ok?
    ensures ObjectFields(v, 0, host).value[i] == Field(v.entries[i].key.s, SetField(v.entries[i].value, host).value)
  {
    ObjectFieldsContent(v, 0, host);
    assert CString(v.entries[i].key.s) == v.entries[i].key.s;
  }

  /** A table keyed only by NUL-free strings converts to an object, with no repeated field name. */
  lemma StringKeyedTableIsObject(v: LuaValue, host: Host)
    requires v.Table? && DistinctKeys(v.entries)
    requires forall i :: 0 <= i < |v.entries| ==> v.entries[i].key.String? && '\0' !in v.entries[i].key.s
    requires ObjectFields(v, 0, host).Ok?
    ensures FromLua(v, host) == Ok(Object(ObjectFields(v, 0, host).value))
    ensures UniqueKeys(ObjectFields(v, 0, host).value)
  {
    assert IndexOf(v.entries, Integer(1)).None?;
    ObjectKeysUnique(v, host);
  }

  /** Each entry of a reordered object table has the NUL-free name of a field as key, and a value that reads back. */
  lemma {:induction false} VisitedValues(d: Jbl, v: LuaValue, host: Host)
    requires d.Object? && Plain(d)
    requires Reordered(v, ToLua(d))
    ensures v.Table? && |v.entries| == |d.fields|
    ensures forall i :: 0 <= i < |v.entries| ==>
      v.entries[i].key.String? && '\0' !in v.entries[i].key.s && FieldIndex(d.fields, v.entries[i].key.s).Some?
    ensures forall i :: 0 <= i < |v.entries| ==>
      && SetField(v.entries[i].value, host).Ok?
      && SameUpToFieldOrder(SetField(v.entries[i].value, host).value, d.fields[FieldIndex(d.fields, v.entries[i].key.s).value].value)
    ensures ObjectFields(v, 0, host).Ok?
    decreases d, 0, 0
  {
    var ws := v.entries;
    PlainFieldsNotNil(d);
    ObjectTableInOrder(d.fields);
    forall i | 0 <= i < |ws|
      ensures ws[i].key.String? && '\0' !in ws[i].key.s && FieldIndex(d.fields, ws[i].key.s).Some?
      ensures SetField(ws[i].value, host).Ok?
      ensures SameUpToFieldOrder(SetField(ws[i].value, host).value, d.fields[FieldIndex(d.fields, ws[i].key.s).value].value)
      ensures IsString(ws[i].key) && SerializableValue(ws[i].value)
    {
      var j := VisitedField(d, v, i);
      FieldIndexAt(d.fields, j);
      ValueRoundTrip(d.fields[j].value, ws[i].value, host);
      SetFieldSucceedsIff(ws[i].value, host);
    }
    ObjectFieldsSucceedIff(v, 0, host);
  }

  /** Two objects whose fields match name for name, in both directions, are the same up to field order. */
  lemma SameFields(rs: seq<Field>, fs: seq<Field>)
    requires |rs| == |fs| && UniqueKeys(rs) && UniqueKeys(fs)
    requires forall i :: 0 <= i < |rs| ==> FieldIndex(fs, rs[i].key).Some?
    requires forall j :: 0 <= j < |fs| ==>
      FieldIndex(rs, fs[j].key).Some? && SameUpToFieldOrder(rs[FieldIndex(rs, fs[j].key).value].value, fs[j].value)
    ensures SameUpToFieldOrder(Object(rs), Object(fs))
  {
  }

  lemma PlainFieldsNotNil(d: Jbl)
    requires d.Object? && Plain(d)
    ensures UniqueKeys(d.fields) && NoNilFields(d.fields)
  {
    forall j | 0 <= j < |d.fields| ensures !d.fields[j].value.NoneValue? && !d.fields[j].value.Null? {
      assert Plain(d.fields[j].value);
    }
  }

  /**
   * The field the i-th entry visited in a reordered object table comes from:
   * the entry is keyed by that field's name and holds a reordering of its
   * converted value.
   */
  lemma VisitedField(d: Jbl, v: LuaValue, i: nat) returns (j: nat)
    requires d.Object? && Plain(d)
    requires Reordered(v, ToLua(d))
    requires v.Table? && i < |v.entries|
    ensures j < |d.fields|
    ensures v.entries[i].key == String(d.fields[j].key)
    ensures Reordered(v.entries[i].value, ToLua(d.fields[j].value))
  {
    PlainFieldsNotNil(d);
    ObjectTableInOrder(d.fields);
    var es := ToLua(d).entries;
    j := IndexOf(es, v.entries[i].key).value;
    RawGetAt(v.entries, i);
  }

  /** The entry a field's name is visited at, in a reordered object table. */
  lemma FieldVisitedAt(d: Jbl, v: LuaValue, j: nat) returns (i: nat)
    requires d.Object? && Plain(d)
    requires Reordered(v, ToLua(d))
    requires j < |d.fields|
    ensures v.Table? && i < |v.entries|
    ensures v.entries[i].key == String(d.fields[j].key)
  {
    PlainFieldsNotNil(d);
    ObjectTableInOrder(d.fields);
    var es := ToLua(d).entries;
    i := IndexOf(v.entries, es[j].key).value;
  }

  /**
   * `["a"]` pushed to Lua comes back with its `__type` tag as an extra
   * string element.  Where the tag lands depends on the order `lua_next`
   * visits the table in, so only the elements, not their order, are fixed.
   */
  lemma ArrayGainsTag(v: LuaValue, host: Host)
    requires Reordered(v, ToLua(Array([Str("a")])))
    ensures FromLua(v, host).Ok? && FromLua(v, host).value.Array?
    ensures multiset(FromLua(v, host).value.items) == multiset{Str("array"), Str("a")}
  {
    var es := ArrayTableOfA();
    TwoEntryOrders(v, es);
    ArrayOfAInOrder(v, v.entries != es, host);
  }

  /** A reordering of a table with two scalar entries visits them in one of the two orders. */
  lemma TwoEntryOrders(v: LuaValue, es: seq<Entry>)
    requires |es| == 2 && es[0].key != es[1].key
    requires !es[0].value.Table? && !es[1].value.Table?
    requires Reordered(v, Table(es))
    ensures v.Table? && (v.entries == es || v.entries == [es[1], es[0]])
  {
    var ws := v.entries;
    forall i | 0 <= i < |ws| ensures ws[i] == es[0] || ws[i] == es[1] {
      var j := IndexOf(es, ws[i].key).value;
      RawGetAt(ws, i);
      assert Reordered(RawGet(ws, es[j].key), es[j].value);
    }
    assert ws[0].key != ws[1].key;
  }

  /** The conversion of `["a"]`'s table visited with its two entries in place or swapped. */
  lemma ArrayOfAInOrder(v: LuaValue, swap: bool, host: Host)
    requires v == Table(if swap then [Entry(Integer(1), String("a")), Entry(TypeKey, ArrayTag)]
                        else [Entry(TypeKey, ArrayTag), Entry(Integer(1), String("a"))])
    ensures FromLua(v, host) == Ok(Array(if swap then [Str("a"), Str("array")] else [Str("array"), Str("a")]))
    ensures multiset(FromLua(v, host).value.items) == multiset{Str("array"), Str("a")}
  {
    var ws := v.entries;
    assert IsArrayLike(ws) by {
      RawGetAt(ws, if swap then 0 else 1);
    }
    TwoTextItems(v, host);
  }

  /** A two-entry table whose values are NUL-free strings gives those strings as items, in visiting order. */
  lemma TwoTextItems(v: LuaValue, host: Host)
    requires v.Table? && |v.entries| == 2
    requires v.entries[0].value.String? && '\0' !in v.entries[0].value.s
    requires v.entries[1].value.String? && '\0' !in v.entries[1].value.s
    ensures ArrayItems(v, 0, host) == Ok([Str(v.entries[0].value.s), Str(v.entries[1].value.s)])
  {
    var a, b := v.entries[0].value.s, v.entries[1].value.s;
    assert CString(a) == a && CString(b) == b;
    assert SetField(String(a), host) == Ok(Str(a));
    assert SetField(String(b), host) == Ok(Str(b));
    assert ArrayItems(v, 2, host) == Ok([]);
    assert [Str(b)] + [] == [Str(b)];
    assert ArrayItems(v, 1, host) == Ok([Str(b)]);
    assert [Str(a)] + [Str(b)] == [Str(a), Str(b)];
  }

  /** The table `ejdb_lua_push_jbl` builds for `["a"]`, in the model's insertion order. */
  lemma ArrayTableOfA() returns (es: seq<Entry>)
    ensures ToLua(Array([Str("a")])) == Table(es)
    ensures es == [Entry(TypeKey, ArrayTag), Entry(Integer(1), String("a"))]
  {
    var d := Array([Str("a")]);
    es := [Entry(TypeKey, ArrayTag), Entry(Integer(1), String("a"))];
    assert IndexOf([Entry(TypeKey, ArrayTag)], Integer(1)).None?;
    assert SetTable([Entry(TypeKey, ArrayTag)], Integer(1), String("a")) == es;
    assert ArrayTable(d, 1, es) == es;
    assert CString("a") == "a";
    assert ToLua(d.items[0]) == String("a");
    assert ArrayTable(d, 0, [Entry(TypeKey, ArrayTag)]) == es;
  }

  /**
   * The pushed table reads back as an array exactly when key 1 is set, that
   * is, when the array is non-empty and its first element is not null: a
   * null element is pushed as nil and not stored.
   */
  lemma ArrayClassifiedByFirstElement(xs: seq<Jbl>)
    ensures IsArrayLike(ToLua(Array(xs)).entries) <==> |xs| > 0 && !xs[0].Null? && !xs[0].NoneValue?
  {
    ArrayLookup(xs, Integer(1));
  }

  /** `[]` is pushed as `{__type = "array"}`, which has no key 1 and so reads back as an object. */
  lemma EmptyArrayBecomesObject(host: Host)
    ensures FromLua(ToLua(Array([])), host) == Ok(Object([Field("__type", Str("array"))]))
  {
    var t := EmptyArrayTable();
    assert !IsArrayLike(t.entries);
    assert CString("array") == "array" && CString("__type") == "__type";
    assert SetField(ArrayTag, host) == Ok(Str("array"));
    assert ObjectFields(t, 1, host) == Ok([]);
    assert [Field("__type", Str("array"))] + [] == [Field("__type", Str("array"))];
  }

  /** The table `ejdb_lua_push_jbl` builds for `[]`: only the tag. */
  lemma EmptyArrayTable() returns (t: LuaValue)
    ensures t == Table([Entry(TypeKey, ArrayTag)])
    ensures ToLua(Array([])) == t
  {
    t := Table([Entry(TypeKey, ArrayTag)]);
    assert ArrayTable(Array([]), 0, t.entries) == t.entries;
  }

  /** An integer field comes back as its decimal text: `lua_isstring` accepts the pushed integer. */
  lemma IntegerFieldBecomesText(k: string, n: int, host: Host)
    requires '\0' !in k
    ensures FromLua(ToLua(Object([Field(k, I64(n))])), host) == Ok(Object([Field(k, Str(DecimalText(n)))]))
  {
    var t := IntegerFieldTable(k, n);
    assert !IsArrayLike(t.entries);
    DecimalTextNoNul(n);
    assert SetField(Integer(n), host) == Ok(Str(DecimalText(n)));
    assert ObjectFields(t, 1, host) == Ok([]);
    assert [Field(k, Str(DecimalText(n)))] + [] == [Field(k, Str(DecimalText(n)))];
  }

  /** The one-field object `{k: n}` is pushed as the one-entry table `{[k] = n}`. */
  lemma IntegerFieldTable(k: string, n: int) returns (t: LuaValue)
    ensures t == Table([Entry(String(k), Integer(n))])
    ensures ToLua(Object([Field(k, I64(n))])) == t
  {
    var e := Entry(String(k), Integer(n));
    t := Table([e]);
    var empty: seq<Entry> := [];
    assert IndexOf(empty, String(k)).None?;
    assert SetTable(empty, String(k), Integer(n)) == empty + [e];
    assert empty + [e] == [e];
    var d := Object([Field(k, I64(n))]);
    assert ObjectTable(d, 1, [e]) == [e];
    assert ObjectTable(d, 0, empty) == ObjectTable(d, 1, [e]);
  }

  /** A null field is pushed as nil, which `lua_settable` does not store, so it does not come back. */
  lemma NullFieldVanishes(k: string, host: Host)
    ensures FromLua(ToLua(Object([Field(k, Null)])), host) == Ok(Object([]))
  {
    var empty: seq<Entry> := [];
    assert IndexOf(empty, String(k)).None?;
    assert SetTable(empty, String(k), Nil) == empty;
    var d := Object([Field(k, Null)]);
    assert ObjectTable(d, 1, empty) == empty;
    assert ObjectTable(d, 0, empty) == ObjectTable(d, 1, empty);
    assert ToLua(d) == Table(empty);
  }
}

=== FILE: scalars.dfy ===
/**
 * Scalar payloads shared by Lua values and engine documents: the opaque
 * IEEE-754 double, the decimal text Lua gives an integer when it coerces
 * it to a string, and the narrowing of a Lua integer to a C `int`.
 */
module Scalars {

  import opened Results

  /** A 64-bit float, carried through unchanged; no arithmetic is modelled. */
  datatype Float = Float(bits: bv64)

  const TwoTo32: int := 0x1_0000_0000
  const TwoTo31: int := 0x8000_0000

  /** A Lua string read as a C string (`lua_pushstring`, `const char*` arguments): the text up to its first NUL. */
  function CString(s: string): (r: string)
    ensures r <= s
    ensures '\0' !in r
    ensures |r| < |s| ==> s[|r|] == '\0'
    ensures '\0' !in s ==> r == s
  {
    s[..NulIndex(s, 0)]
  }

  /** The position of the first NUL at or after `i`, or the length of `s` when there is none. */
  function NulIndex(s: string, i: nat): (n: nat)
    requires i <= |s|
    ensures i <= n <= |s|
    ensures forall k :: i <= k < n ==> s[k] != '\0'
    ensures n < |s| ==> s[n] == '\0'
    decreases |s| - i
  {
    if i == |s| || s[i] == '\0' then i else NulIndex(s, i + 1)
  }

  /** Decimal digits of a natural number, most significant first. */
  function Digits(n: nat): (r: string)
    ensures |r| > 0
    ensures forall i :: 0 <= i < |r| ==> '0' <= r[i] <= '9'
    ensures n > 0 ==> r[0] != '0'
    decreases n
  {
    if n < 10 then [DigitChar(n)] else Digits(n / 10) + [DigitChar(n % 10)]
  }

  function DigitChar(d: nat): (c: char)
    requires d < 10
    ensures '0' <= c <= '9'
  {
    (('0' as int) + d) as char
  }

  /** The text `lua_tolstring` gives an integer ("%lld"). */
  function DecimalText(i: int): (r: string)
    ensures |r| > 0
    ensures i < 0 <==> r[0] == '-'
  {
    if i < 0 then "-" + Digits(-i) else Digits(i)
  }

  /** Reads back an unsigned run of decimal digits. */
  function DigitsValue(s: string): (n: nat)
    requires forall i :: 0 <= i < |s| ==> '0' <= s[i] <= '9'
    decreases |s|
  {
    if s == [] then 0 else DigitsValue(s[..|s| - 1]) * 10 + ((s[|s| - 1] as int) - ('0' as int))
  }

  /** Reads back an optionally negative decimal numeral. */
  function ParseDecimal(s: string): Option<int>
  {
    if |s| > 0 && s[0] == '-' then
      if |s| > 1 && forall i :: 1 <= i < |s| ==> '0' <= s[i] <= '9' then Some(0 - DigitsValue(s[1..]) as int) else None
    else if |s| > 0 && forall i :: 0 <= i < |s| ==> '0' <= s[i] <= '9' then Some(DigitsValue(s))
    else None
  }

  lemma {:induction false} DigitsRoundTrip(n: nat)
    ensures DigitsValue(Digits(n)) == n
    decreases n
  {
    if n >= 10 {
      var d := Digits(n);
      assert d[..|d| - 1] == Digits(n / 10);
      DigitsRoundTrip(n / 10);
    }
  }

  /** Reading back the coerced text of an integer yields the integer. */
  lemma DecimalRoundTrip(i: int)
    ensures ParseDecimal(DecimalText(i)) == Some(i)
  {
    if i < 0 {
      NegativeRoundTrip(-i);
    } else {
      DigitsRoundTrip(i);
    }
  }

  lemma NegativeRoundTrip(n: nat)
    requires n > 0
    ensures ParseDecimal("-" + Digits(n)) == Some(-(n as int))
  {
    var r := "-" + Digits(n);
    DigitsRoundTrip(n);
    assert r[1..] == Digits(n);
  }

  /** The coerced text of an integer has no NUL, so reading it as a C string keeps all of it. */
  lemma DecimalTextNoNul(i: int)
    ensures '\0' !in DecimalText(i)
    ensures CString(DecimalText(i)) == DecimalText(i)
  {
    var r := DecimalText(i);
    var d := if i < 0 then Digits(-i) else Digits(i);
    assert forall k :: 0 <= k < |d| ==> d[k] != '\0';
    if i < 0 {
      assert r == "-" + d;
      assert forall k :: 1 <= k < |r| ==> r[k] == d[k - 1];
    }
  }

  /** Distinct integers coerce to distinct strings. */
  lemma DecimalTextInjective(i: int, j: int)
    requires DecimalText(i) == DecimalText(j)
    ensures i == j
  {
    DecimalRoundTrip(i);
    DecimalRoundTrip(j);
  }

  /**
   * The C conversion `int index = <lua_Integer>`: the value is reduced to
   * 32-bit two's complement, as the usual compilers do for an out-of-range
   * conversion.
   */
  function WrapInt32(i: int): (r: int)
    ensures -TwoTo31 <= r < TwoTo31
    ensures (r - i) % TwoTo32 == 0
    ensures -TwoTo31 <= i < TwoTo31 ==> r == i
  {
    var m := i % TwoTo32;
    if m >= TwoTo31 then m - TwoTo32 else m
  }
}

=== FILE: to_document.dfy ===
/**
 * Lua value -> engine document: `ejdb_lua_jbl_from_lua`,
 * `ejdb_lua_jbl_from_lua_set_field` and `ejdb_lua_jbl_create`.
 *
 * A table is classified once, by probing key 1.  An array-classified table
 * appends the converted value of EVERY entry `lua_next` visits, keys
 * ignored; an object-classified table stores each converted value under its
 * key coerced to a string.  A raised Lua error stops the conversion at the
 * first offending entry in traversal order.
 */
module ToDocument {

  import opened Results
  import opened Scalars
  import opened Jbl
  import opened Lua

  /** Engine calls made on the non-table paths of `ejdb_lua_jbl_create`. */
  datatype Engine = Engine(
    fromJson: string -> Result<Jbl>, // jbl_from_json
    clone: Jbl -> Result<Jbl>        // jbl_clone
  )

  /** The probe of `lua_geti(L, index, 1)`: key 1 holds a non-nil value. */
  predicate IsArrayLike(t: seq<Entry>)
  {
    RawGet(t, Integer(1)) != Nil
  }

  /** `ejdb_lua_jbl_from_lua`: a table becomes an array or an object document. */
  function FromLua(v: LuaValue, host: Host): (r: Result<Jbl>)
    decreases v, 1
    ensures !v.Table? ==> r == Err(InvalidTypeToSerialize(TypeName(v)))
    ensures r.Ok? ==> v.Table?
    ensures r.Ok? ==> (r.value.Array? <==> IsArrayLike(v.entries))
    ensures r.Ok? ==> (r.value.Object? <==> !IsArrayLike(v.entries))
    ensures r.Ok? && r.value.Array? ==> |r.value.items| == |v.entries|
    ensures r.Ok? && r.value.Object? ==> |r.value.fields| == |v.entries|
  {
    if !v.Table? then Err(InvalidTypeToSerialize(TypeName(v)))
    else if IsArrayLike(v.entries) then
      var items :- ArrayItems(v, 0, host);
      Ok(Array(items))
    else
      var fields :- ObjectFields(v, 0, host);
      Ok(Object(fields))
  }

  /** The array loop: entries `i..` of table `t`, each value appended in traversal order. */
  function ArrayItems(t: LuaValue, i: nat, host: Host): (r: Result<seq<Jbl>>)
    requires t.Table? && i <= |t.entries|
    decreases t, 0, |t.entries| - i
    ensures r.Ok? ==> |r.value| == |t.entries| - i
  {
    if i == |t.entries| then Ok([])
    else
      var item :- SetField(t.entries[i].value, host);
      var rest :- ArrayItems(t, i + 1, host);
      Ok([item] + rest)
  }

  /** The field name a key gives: its string coercion, read as a C string. */
  function FieldName(key: LuaValue, host: Host): (name: string)
    requires IsString(key)
  {
    CString(ToText(key, host))
  }

  /**
   * The object loop: entries `i..` of table `t`, each value stored under its
   * string-coerced key.  The key reaches `jbl_set_*` as a C string, so the
   * field name stops at the key's first NUL.  The fields are the
   * `jbl_set_*` calls in order; a name already present is kept as another
   * field, since the engine's handling of it is not visible here.
   */
  function ObjectFields(t: LuaValue, i: nat, host: Host): (r: Result<seq<Field>>)
    requires t.Table? && i <= |t.entries|
    decreases t, 0, |t.entries| - i
    ensures r.Ok? ==> |r.value| == |t.entries| - i
    ensures r.Ok? ==> forall j :: i <= j < |t.entries| ==>
      IsString(t.entries[j].key) && r.value[j - i].key == FieldName(t.entries[j].key, host)
  {
    if i == |t.entries| then Ok([])
    else
      var key :- CheckString(t.entries[i].key, -2, host);
      var value :- SetField(t.entries[i].value, host);
      var rest :- ObjectFields(t, i + 1, host);
      var fields := [Field(FieldName(t.entries[i].key, host), value)] + rest;
      assert forall k :: 0 < k < |fields| ==> fields[k] == rest[k - 1];
      Ok(fields)
  }

  /**
   * `ejdb_lua_jbl_from_lua_set_field`: the document value stored for one
   * table value.  The tests run in the source's order: table, then
   * `lua_isstring` (which numbers pass, coerced to their text), then
   * boolean; anything else raises.  The text reaches `jbl_set_string` as a
   * C string, so it stops at its first NUL.
   */
  function SetField(v: LuaValue, host: Host): (r: Result<Jbl>)
    decreases v, 2
    ensures r.Ok? ==> (r.value.Array? || r.value.Object?) == v.Table?
    ensures IsString(v) ==> r == Ok(Str(CString(ToText(v, host))))
    ensures v.Boolean? ==> r == Ok(Bool(v.b))
    ensures !(v.Table? || IsString(v) || v.Boolean?) ==> r == Err(InvalidTypeToSerialize(TypeName(v)))
  {
    if v.Table? then FromLua(v, host)
    else if IsString(v) then Ok(Str(CString(ToText(v, host))))
    else if v.Boolean? then Ok(Bool(v.b))
    else Err(InvalidTypeToSerialize(TypeName(v)))
  }

  predicate IsDocumentHandle(v: LuaValue)
  {
    v.Userdata? && v.u.DocumentHandle?
  }

  /**
   * `ejdb_lua_jbl_create(L, index, out)` with the fallback reading the
   * argument at `index` (see `CreateFallbackAsWritten` for the code as
   * written): a table is converted, a string or number is parsed as JSON
   * text (read as a C string), and a userdata holding a document is cloned.
   */
  function JblCreate(args: seq<LuaValue>, index: nat, host: Host, engine: Engine): (r: Result<Jbl>)
    requires index >= 1
    ensures Arg(args, index).Table? ==> r == FromLua(Arg(args, index), host)
    ensures IsString(Arg(args, index)) ==> r == engine.fromJson(CString(ToText(Arg(args, index), host)))
    ensures IsDocumentHandle(Arg(args, index)) ==> r == engine.clone(Arg(args, index).u.doc)
    ensures !(Arg(args, index).Table? || IsString(Arg(args, index)) || IsDocumentHandle(Arg(args, index))) ==>
      r == Err(BadArgument(index, MetaDocument, SlotTypeName(args, index)))
  {
    var v := Arg(args, index);
    if v.Table? then FromLua(v, host)
    else if IsString(v) then engine.fromJson(CString(ToText(v, host)))
    else if index > |args| then Err(BadArgument(index, MetaDocument, "no value"))
    else
      var u :- CheckUdata(v, index, MetaDocument);
      engine.clone(u.doc)
  }

  // ------------------------------------------------------------ properties

  /**
   * A reference definition of the tables the conversion accepts, written
   * independently of the conversion: every key of an object-classified
   * table passes `lua_isstring`, and every value is a string, number,
   * boolean or an acceptable table.
   */
  predicate Serializable(v: LuaValue)
    decreases v, 1
  {
    && v.Table?
    && forall i :: 0 <= i < |v.entries| ==>
      && (IsArrayLike(v.entries) || IsString(v.entries[i].key))
      && SerializableValue(v.entries[i].value)
  }

  predicate SerializableValue(v: LuaValue)
    decreases v, 2
  {
    IsString(v) || v.Boolean? || Serializable(v)
  }

  /** The conversion of a value succeeds exactly when the value is serializable. */
  lemma {:induction false} FromLuaSucceedsIff(v: LuaValue, host: Host)
    ensures FromLua(v, host).Ok? <==> Serializable(v)
    decreases v, 1
  {
    if v.Table? {
      if IsArrayLike(v.entries) {
        ArrayItemsSucceedIff(v, 0, host);
      } else {
        ObjectFieldsSucceedIff(v, 0, host);
      }
    }
  }

  lemma {:induction false} SetFieldSucceedsIff(v: LuaValue, host: Host)
    ensures SetField(v, host).Ok? <==> SerializableValue(v)
    decreases v, 2
  {
    if v.Table? {
      FromLuaSucceedsIff(v, host);
    }
  }

  lemma {:induction false} ArrayItemsSucceedIff(t: LuaValue, i: nat, host: Host)
    requires t.Table? && i <= |t.entries|
    ensures ArrayItems(t, i, host).Ok? <==> forall j :: i <= j < |t.entries| ==> SerializableValue(t.entries[j].value)
    decreases t, 0, |t.entries| - i
  {
    if i < |t.entries| {
      SetFieldSucceedsIff(t.entries[i].value, host);
      ArrayItemsSucceedIff(t, i + 1, host);
    }
  }

  lemma {:induction false} ObjectFieldsSucceedIff(t: LuaValue, i: nat, host: Host)
    requires t.Table? && i <= |t.entries|
    ensures ObjectFields(t, i, host).Ok? <==>
      forall j :: i <= j < |t.entries| ==> IsString(t.entries[j].key) && SerializableValue(t.entries[j].value)
    decreases t, 0, |t.entries| - i
  {
    if i < |t.entries| {
      SetFieldSucceedsIff(t.entries[i].value, host);
      ObjectFieldsSucceedIff(t, i + 1, host);
    }
  }

  /**
   * Array-classified table: the k-th element of the document is the
   * converted value of the k-th entry visited, whatever that entry's key.
   */
  lemma {:induction false} ArrayItemsContent(t: LuaValue, i: nat, host: Host)
    requires t.Table? && i <= |t.entries|
    requires ArrayItems(t, i, host).Ok?
    ensures forall j :: i <= j < |t.entries| ==> SetField(t.entries[j].value, host) == Ok(ArrayItems(t, i, host).value[j - i])
    decreases |t.entries| - i
  {
    if i < |t.entries| {
      ArrayItemsContent(t, i + 1, host);
    }
  }

  /**
   * Object-classified table: the k-th field of the document is named by the
   * k-th key visited, coerced to a string and cut at its first NUL, and
   * holds that entry's converted value.
   */
  lemma {:induction false} ObjectFieldsContent(t: LuaValue, i: nat, host: Host)
    requires t.Table? && i <= |t.entries|
    requires ObjectFields(t, i, host).Ok?
    ensures forall j :: i <= j < |t.entries| ==> SetField(t.entries[j].value, host).Ok?
    ensures forall j :: i <= j < |t.entries| ==>
      ObjectFields(t, i, host).value[j - i] == Field(CString(ToText(t.entries[j].key, host)), SetField(t.entries[j].value, host).value)
    decreases |t.entries| - i
  {
    if i < |t.entries| {
      ObjectFieldsContent(t, i + 1, host);
      var e := t.entries[i];
      var rest := ObjectFields(t, i + 1, host).value;
      var fs := ObjectFields(t, i, host).value;
      assert fs == [Field(CString(ToText(e.key, host)), SetField(e.value, host).value)] + rest;
      forall j | i < j < |t.entries|
        ensures fs[j - i] == Field(CString(ToText(t.entries[j].key, host)), SetField(t.entries[j].value, host).value)
      {
        assert fs[j - i] == rest[j - (i + 1)];
      }
    }
  }

  /**
   * A failed array conversion reports the error of the first entry, in
   * traversal order, whose value cannot be stored.
   */
  lemma {:induction false} ArrayItemsFirstError(t: LuaValue, i: nat, host: Host)
    requires t.Table? && i <= |t.entries|
    requires ArrayItems(t, i, host).Err?
    ensures exists j ::
      && i <= j < |t.entries|
      && (forall k :: i <= k < j ==> SetField(t.entries[k].value, host).Ok?)
      && SetField(t.entries[j].value, host) == Err(ArrayItems(t, i, host).error)
    decreases |t.entries| - i
  {
    if SetField(t.entries[i].value, host).Ok? {
      ArrayItemsFirstError(t, i + 1, host);
      var j :| i + 1 <= j < |t.entries|
        && (forall k :: i + 1 <= k < j ==> SetField(t.entries[k].value, host).Ok?)
        && SetField(t.entries[j].value, host) == Err(ArrayItems(t, i + 1, host).error);
      assert forall k :: i <= k < j ==> SetField(t.entries[k].value, host).Ok?;
    }
  }

  /** The error an object-classified entry raises: its key is checked before its value is converted. */
  function EntryError(e: Entry, host: Host): Option<Error>
  {
    if !IsString(e.key) then Some(BadArgument(-2, "string", TypeErrorName(e.key)))
    else if SetField(e.value, host).Err? then Some(SetField(e.value, host).error)
    else None
  }

  /**
   * A failed object conversion reports the error of the first entry, in
   * traversal order, whose key is not a string or number or whose value
   * cannot be stored.
   */
  lemma {:induction false} ObjectFieldsFirstError(t: LuaValue, i: nat, host: Host)
    requires t.Table? && i <= |t.entries|
    requires ObjectFields(t, i, host).Err?
    ensures exists j ::
      && i <= j < |t.entries|
      && (forall k :: i <= k < j ==> EntryError(t.entries[k], host).None?)
      && EntryError(t.entries[j], host) == Some(ObjectFields(t, i, host).error)
    decreases |t.entries| - i
  {
    if EntryError(t.entries[i], host).None? {
      ObjectFieldsFirstError(t, i + 1, host);
      var j :| i + 1 <= j < |t.entries|
        && (forall k :: i + 1 <= k < j ==> EntryError(t.entries[k], host).None?)
        && EntryError(t.entries[j], host) == Some(ObjectFields(t, i + 1, host).error);
      assert forall k :: i <= k < j ==> EntryError(t.entries[k], host).None?;
    }
  }

  /**
   * When every key of an object-classified table is a string without a NUL,
   * the document has no repeated field name, because a Lua table has no
   * repeated key.  (Keys that differ only after a NUL collide: see
   * `NulKeysCollide`.)
   */
  lemma ObjectKeysUnique(t: LuaValue, host: Host)
    requires t.Table? && DistinctKeys(t.entries)
    requires forall i :: 0 <= i < |t.entries| ==> t.entries[i].key.String? && '\0' !in t.entries[i].key.s
    requires FromLua(t, host).Ok? && FromLua(t, host).value.Object?
    ensures UniqueKeys(FromLua(t, host).value.fields)
  {
    assert FromLua(t, host).value.fields == ObjectFields(t, 0, host).value;
    ObjectFieldsContent(t, 0, host);
    var fs := FromLua(t, host).value.fields;
    forall i, j | 0 <= i < j < |fs| ensures fs[i].key != fs[j].key {
      assert fs[i].key == t.entries[i].key.s && fs[j].key == t.entries[j].key.s;
    }
  }

  /**
   * Integer keys of an object-classified table also give distinct field
   * names: distinct integers have distinct decimal texts.
   */
  lemma ObjectIntegerKeysUnique(t: LuaValue, host: Host)
    requires t.Table? && DistinctKeys(t.entries)
    requires forall i :: 0 <= i < |t.entries| ==> t.entries[i].key.Integer?
    requires FromLua(t, host).Ok? && FromLua(t, host).value.Object?
    ensures UniqueKeys(FromLua(t, host).value.fields)
  {
    assert FromLua(t, host).value.fields == ObjectFields(t, 0, host).value;
    ObjectFieldsContent(t, 0, host);
    var fs := FromLua(t, host).value.fields;
    forall i, j | 0 <= i < j < |fs| ensures fs[i].key != fs[j].key {
      DecimalTextNoNul(t.entries[i].key.i);
      DecimalTextNoNul(t.entries[j].key.i);
      if fs[i].key == fs[j].key {
        DecimalTextInjective(t.entries[i].key.i, t.entries[j].key.i);
      }
    }
  }

  // ------------------------------------------- the code as written, where it differs

  /**
   * Line 121 as written: the fallback of `ejdb_lua_jbl_create` checks stack
   * slot 1, not `index`, against the query metatable, and hands what it
   * finds to `jbl_clone` as if it were a document.
   */
  function CreateFallbackAsWritten(args: seq<LuaValue>): (r: Result<Udata>)
    ensures r.Ok? <==> Arg(args, 1).Userdata? && Arg(args, 1).u.QueryHandle?
    ensures r.Ok? ==> r.value == Arg(args, 1).u
    ensures r.Err? ==> r.error == BadArgument(1, MetaQuery, SlotTypeName(args, 1))
  {
    if |args| == 0 then Err(BadArgument(1, MetaQuery, "no value"))
    else CheckUdata(args[0], 1, MetaQuery)
  }

  /**
   * Called from `ejdb_lua_ejdb_put_new`, slot 1 always holds the database
   * (line 139 checked it), so the fallback as written raises whatever the
   * document argument is; the corrected `JblCreate` clones it.
   */
  lemma FallbackAsWrittenRejectsDocument(args: seq<LuaValue>, index: nat, host: Host, engine: Engine)
    requires index >= 1
    requires Arg(args, 1).Userdata? && Arg(args, 1).u.DatabaseHandle?
    requires IsDocumentHandle(Arg(args, index))
    ensures CreateFallbackAsWritten(args) == Err(BadArgument(1, "JQL*", "EJDB*"))
    ensures JblCreate(args, index, host, engine) == engine.clone(Arg(args, index).u.doc)
  {
  }

  /** `db:put_new("c")`: slot 3 is absent, so the corrected fallback reports "no value". */
  lemma PutNewMissingDocument(host: Host, engine: Engine)
    ensures JblCreate([Userdata(DatabaseHandle(0)), String("c")], 3, host, engine) == Err(BadArgument(3, MetaDocument, "no value"))
  {
  }

  /**
   * The code `ejdb_lua_jbl_from_lua` returns as written: its table path ends
   * without a `return`, so the caller reads an indeterminate value, given
   * here as `indeterminate`.  Raised errors unwind as before.
   */
  function FromLuaCodeAsWritten(v: LuaValue, host: Host, indeterminate: int): (r: Result<int>)
    ensures r.Ok? <==> FromLua(v, host).Ok?
    ensures r.Ok? ==> r.value == indeterminate
  {
    var _ :- FromLua(v, host);
    Ok(indeterminate)
  }

  /**
   * The empty table converts to the empty object, yet as written the code
   * handed back can be non-zero, which `ejdb_lua_ejdb_put_new` (line 141)
   * reports as a failure.
   */
  lemma MissingReturnExample(host: Host)
    ensures FromLua(Table([]), host) == Ok(Object([]))
    ensures FromLuaCodeAsWritten(Table([]), host, 1) == Ok(1)
  {
  }

  /**
   * Line 101 as written: `luaL_checkstring(L, -2)` converts a number key in
   * place, so the key the next `lua_next` receives is its string form.
   */
  function KeyLeftForNextAsWritten(key: LuaValue, host: Host): (r: LuaValue)
    ensures IsString(key) ==> r == String(ToText(key, host))
    ensures !key.Integer? && !key.Number? ==> r == key
  {
    if IsString(key) then String(ToText(key, host)) else key
  }

  /**
   * An integer key of an object-classified table whose text is not also a
   * key makes the as-written traversal fail with "invalid key to 'next'";
   * handing back the original key, as `ObjectFields` does, moves on.
   */
  lemma NumericKeyBreaksTraversal(t: seq<Entry>, i: nat, host: Host)
    requires TableShape(t)
    requires i < |t|
    requires t[i].key.Integer?
    requires forall j :: 0 <= j < |t| ==> t[j].key != String(DecimalText(t[i].key.i))
    ensures Next(t, KeyLeftForNextAsWritten(t[i].key, host)) == Err(InvalidKeyToNext)
    ensures Next(t, t[i].key).Ok?
  {
  }

  /**
   * When the integer key's text is also a key, the as-written traversal
   * resumes after THAT entry instead: entries between the two are skipped,
   * and entries before the text key are visited again.
   */
  lemma NumericKeyResumesAtText(t: seq<Entry>, i: nat, j: nat, host: Host)
    requires TableShape(t)
    requires i < |t| && j < |t|
    requires t[i].key.Integer?
    requires t[j].key == String(DecimalText(t[i].key.i))
    ensures Next(t, KeyLeftForNextAsWritten(t[i].key, host)) == Ok(if j + 1 < |t| then Some(t[j + 1]) else None)
  {
    RawGetAt(t, j);
  }

  /**
   * `{[2] = "x", ["2"] = "y"}` visited as `2, "2"`: the as-written traversal
   * ends after the first entry, and `"2"` is never stored.
   */
  lemma NumericKeySkipExample(host: Host)
    ensures Next([Entry(Integer(2), String("x")), Entry(String("2"), String("y"))],
                 KeyLeftForNextAsWritten(Integer(2), host)) == Ok(None)
  {
    assert DecimalText(2) == "2";
    NumericKeyResumesAtText([Entry(Integer(2), String("x")), Entry(String("2"), String("y"))], 0, 1, host);
  }

  /**
   * The same table visited as `"2", 2`: after entry `2` the as-written
   * traversal comes back to entry `2`, every time, so the loop never ends.
   */
  lemma NumericKeyLoopExample(host: Host)
    ensures Next([Entry(String("2"), String("y")), Entry(Integer(2), String("x"))],
                 KeyLeftForNextAsWritten(Integer(2), host)) == Ok(Some(Entry(Integer(2), String("x"))))
  {
    assert DecimalText(2) == "2";
    NumericKeyResumesAtText([Entry(String("2"), String("y")), Entry(Integer(2), String("x"))], 1, 0, host);
  }

  /**
   * Keys that differ only after a NUL reach `jbl_set_*` as the same C
   * string: `{["a\0b"] = true, ["a\0c"] = false}` hands both entries to
   * `jbl_set_*` under the name "a", modelled as two fields named "a".
   */
  lemma NulKeysCollide(host: Host)
    ensures FromLua(Table([Entry(String("a\0b"), Boolean(true)), Entry(String("a\0c"), Boolean(false))]), host)
      == Ok(Object([Field("a", Bool(true)), Field("a", Bool(false))]))
  {
    var t := Table([Entry(String("a\0b"), Boolean(true)), Entry(String("a\0c"), Boolean(false))]);
    assert CString("a\0b") == "a" && CString("a\0c") == "a";
    assert !IsArrayLike(t.entries);
    ObjectFieldsSucceedIff(t, 0, host);
    ObjectFieldsContent(t, 0, host);
    var fs := ObjectFields(t, 0, host).value;
    assert fs == [fs[0], fs[1]];
  }

  /** `{[2] = "x"}`: converted to `{"2": "x"}`, but the as-written traversal raises after the first entry. */
  lemma NumericKeyExample(host: Host)
    ensures FromLua(Table([Entry(Integer(2), String("x"))]), host) == Ok(Object([Field("2", Str("x"))]))
    ensures Next([Entry(Integer(2), String("x"))], KeyLeftForNextAsWritten(Integer(2), host)) == Err(InvalidKeyToNext)
  {
    var t := Table([Entry(Integer(2), String("x"))]);
    assert DecimalText(2) == "2";
    assert !IsArrayLike(t.entries);
    assert ObjectFields(t, 1, host) == Ok([]);
    assert CheckString(Integer(2), -2, host) == Ok("2");
    assert SetField(String("x"), host) == Ok(Str("x"));
    assert t.entries[0] == Entry(Integer(2), String("x"));
    assert [Field("2", Str("x"))] + [] == [Field("2", Str("x"))];
    assert ObjectFields(t, 0, host) == Ok([Field("2", Str("x"))]);
  }
}
